=== FILE: README.md ===
# LoggedInView, modelled in Dafny

A model of the logged-in shell of the Matrix web client
(`src/components/structures/LoggedInView.tsx`): the component that sits
around the room list, the room view and the banners once a user is signed in.
The model covers what that component decides on its own:

- the keyboard classifier `_onKeyDown` (global shortcuts, the platform hook,
  the redirect of typing to the message composer) and its two entry points;
- the paste redirect and its walk up the DOM parent chain;
- the top banner chosen in `render` (hard and soft server limits, cookie bar,
  new version, update check, password nag, notifier toolbar) and the body classes;
- the sync-error bookkeeping of `onSync` and the refresh of pinned server notices;
- the end of a drag (tag panel reordering and room re-tagging);
- the background click detection of mouse down / mouse up;
- the persisted left-panel width (`mx_lhs_size`) and the resizer callbacks;
- account-data reactions and the banner-change guess of `componentDidUpdate`.

Modules, one per concern of the file:

| module | file | what it holds |
|---|---|---|
| `Wrappers` | wrappers.dfy | `Option`, and `Nullish` (`undefined` / `null` / a value) for JavaScript's strict `===` |
| `JsString` | js_string.dfy | `split` with a one-character separator, `pop()`, `split(c)[1]` |
| `JsNumber` | js_number.dfy | `parseInt(s, 10)` and `'' + n` on integers |
| `Dom` | dom.dfy | elements, `canElementReceiveInput`, the parent walk of `_onPaste` |
| `Actions` | actions.dfy | the payloads put on the action bus |
| `KeyDispatch` | key_dispatch.dfy | `_onKeyDown` as a method proved against a classification function |
| `Matrix` | matrix.dfy | events and the sync error payload |
| `TopBar` | top_bar.dfy | the banner choice and body classes of `render`, the `componentDidUpdate` guess |
| `ServerNotices` | server_notices.dfy | `_updateServerNoticeEvents` |
| `DragDrop` | drag_drop.dfy | `_onDragEnd`, `_onRoomTileEndDrag` |
| `ClickDetection` | click_detection.dfy | the background test of `_onMouseDown`, the distance test of `_onMouseUp` |
| `LhsSize` | lhs_size.dfy | `_loadResizerPreferences` over the key-value store |
| `Shell` | logged_in_view.dfy | class `LoggedInView`: state, props and every handler as a method |

The class `Shell.LoggedInView` keeps the component's state (`syncErrorData`,
`serverNoticeEvents`, `mouseDown`, `userHasGeneratedPassword`,
`useCompactLayout`) and its props as fields. Its environment is also held in
fields: the log of dispatched actions (`bus`), the key-value store standing
in for `localStorage`, the log of resize-notifier calls, and the log of
widths applied to the resizer's first handle. Each handler is a method that
changes only what its `modifies` clause names. Its `ensures` states the whole
new state in terms of the specification functions of the other modules. The
properties are proved about those functions.

Behaviours of the code worth noting; the model follows the code:

- When there is no `m.server_notice` room list, `_updateServerNoticeEvents`
  returns before its `setState`. The cached notices stay as they were; they
  are not emptied (`ServerNotices.NoListNoWrite`).
- The context-menu key is never redirected to the composer. It falls into the
  `default` arm of the switch, though, so the platform hook is asked about it.
  When the platform reports it handled, the event is stopped and its default
  prevented (`KeyDispatch.ContextMenuNotCaptured`).
- `render` reads `syncErrorData.error.errcode` without checking that `error`
  exists, and reads `error.data` for the hard limit without checking `data`.
  Either read throws a `TypeError`; the model returns `RenderThrows` for it
  (`TopBar.RenderThrowsExactly`).
- The constructor calls `_setStateFromSessionStore` and `_updateServerNoticeEvents`,
  but a `setState` before the component is mounted is ignored by React. The
  generated-password flag therefore starts false and the notices start empty;
  they change only through later calls of the session-store listener and the
  refresh resuming after its first fetch (`Shell.LoggedInView.constructor`).
- `onSync` compares sync states with `===`; every state the client reports is
  kept distinct, and the previous state of the first sync is `null`
  (`Shell.LoggedInView.OnSync`).
- `_onMouseUp` doubles `deltaY` where the Euclidean distance squares it. The
  handler is modelled as written; the intended test is stated and proved
  separately (see Findings).

## Model

| member | source | states |
|---|---|---|
| `Dom.InputInAncestryIsSearch` | src/components/structures/LoggedInView.tsx:55-60 | The recursive "some element on the parent chain can receive input" agrees with a search over the whole ancestry, in both directions |
| `Dom.AnyAncestorReceivesInput` | src/components/structures/LoggedInView.tsx:333-340 | The `_onPaste` loop answers true exactly when the target or one of its ancestors is an INPUT, TEXTAREA or SELECT or has a non-empty `contenteditable` |
| `Dom.CanReceiveInput` | src/components/structures/LoggedInView.tsx:55-60 | Definition: an INPUT, TEXTAREA or SELECT element, or one with a non-empty `contenteditable` attribute |
| `Dom.InputInAncestry` | src/components/structures/LoggedInView.tsx:333-340 | Definition: the element or one of its `parentElement` ancestors can receive input |
| `KeyDispatch.OnKeyDown` | src/components/structures/LoggedInView.tsx:386-501 | The switch-and-flag method computes the classification function; a handled event has its default prevented and propagation stopped, an unhandled one never has its default prevented; at most one action is dispatched |
| `KeyDispatch.SwitchOnKey` | src/components/structures/LoggedInView.tsx:406-476 | A key with a case arm is handled exactly when its arm's guard holds, and then runs that arm's shortcut (scroll, dialog toggle, or one synchronous dispatch); only a key without an arm consults the platform, whose answer is then the verdict |
| `KeyDispatch.ArmShortcut` | src/components/structures/LoggedInView.tsx:406-472 | Definition: for each key with a case arm, the guard on page type and modifiers and the shortcut it triggers |
| `KeyDispatch.RedirectsToComposer` | src/components/structures/LoggedInView.tsx:481-499 | Definition: the conditions under which an unhandled key is sent to the composer |
| `KeyDispatch.KeyDownSpec` | src/components/structures/LoggedInView.tsx:386-501 | Definition: the outcome of `_onKeyDown` (handled, prevented, stopped, dispatches, platform consulted), against which `OnKeyDown` is proved |
| `KeyDispatch.HandledIsStoppedAndPrevented` | src/components/structures/LoggedInView.tsx:478-480 | Every handled key event is stopped and has its default prevented |
| `KeyDispatch.CtrlKFocusesRoomFilter` | src/components/structures/LoggedInView.tsx:422-429 | Ctrl/Cmd+K alone focuses the room filter and is handled; K with any other modifier combination does not dispatch that action and is not handled |
| `KeyDispatch.AltArrowMovesRoom` | src/components/structures/LoggedInView.tsx:451-461 | Alt+Up/Down without Ctrl or Meta moves one room up (-1) or down (+1), unread-only exactly when Shift is held, without asking the platform |
| `KeyDispatch.PlatformOnlyForUnlistedKeys` | src/components/structures/LoggedInView.tsx:473-475 | The platform hook is asked exactly for keys without a case arm, and its answer decides whether they are handled; a listed key is handled exactly when its arm's guard holds |
| `KeyDispatch.ComposerRedirect` | src/components/structures/LoggedInView.tsx:481-499 | The composer is focused synchronously exactly for unhandled, unmodified, non-modifier keys that are not the context-menu key, not Tab, not Space/Enter on a focused element and whose target cannot take input; then propagation is stopped but the default is kept; otherwise an unhandled event is left untouched |
| `KeyDispatch.ContextMenuNotCaptured` | src/components/structures/LoggedInView.tsx:473-491 | The context-menu key never dispatches anything; it is stopped and prevented only when the platform reports it handled |
| `KeyDispatch.PlainKeyGoesToComposer` | src/components/structures/LoggedInView.tsx:473-499 | An unlisted key without modifiers, not handled by the platform, on a target that cannot take input, yields exactly one synchronous focus-composer dispatch, stops propagation and keeps the default |
| `Matrix.ErrCodeOf` | src/components/structures/LoggedInView.tsx:281-286 | `d && d.error && d.error.errcode` is `undefined` when the payload or its error is `undefined`, `null` when either is `null`, and the error's `errcode` whenever an error is present |
| `TopBar.UsageLimitEvent` | src/components/structures/LoggedInView.tsx:667-672 | The soft-limit notice is the first cached notice that is an `m.room.message` with server-notice type `m.server_notice.usage_limit_reached`, and there is none exactly when no notice qualifies |
| `TopBar.SelectTopBar` | src/components/structures/LoggedInView.tsx:674-700 | Definition: the if/else chain choosing the top bar, `None` when rendering throws |
| `TopBar.BodyClasses` | src/components/structures/LoggedInView.tsx:702-708 | The body classes start with `mx_MatrixChat`, include the toolbar class exactly when a bar is shown and the compact class exactly when the compact layout is on |
| `TopBar.RenderChrome` | src/components/structures/LoggedInView.tsx:674-708 | Definition: the banner and body classes `render` produces, or the throw |
| `TopBar.BannersMayHaveChanged` | src/components/structures/LoggedInView.tsx:186-196 | Definition: one of the cookie-bar, new-version, generated-password or notifier-toolbar inputs differs |
| `TopBar.FirstTrueAt` | src/components/structures/LoggedInView.tsx:674-700 | In the precedence list of banner conditions, an index that holds and is preceded only by false conditions is the first match |
| `TopBar.SelectionIsFirstMatch` | src/components/structures/LoggedInView.tsx:674-700 | The banner shown is the one whose condition is the first to hold in the order hard limit, soft limit, cookie bar, new version, update check, password nag, notifier toolbar; no banner is shown when none holds |
| `TopBar.ToolbarClassIffBar` | src/components/structures/LoggedInView.tsx:702-708 | The body gets `mx_MatrixChat_toolbarShowing` exactly when a banner is shown, which is exactly when one of the seven conditions holds |
| `TopBar.RenderThrowsExactly` | src/components/structures/LoggedInView.tsx:675-679 | Rendering throws exactly when a truthy sync error payload has no error object, or when the hard limit matches and its `data` is missing |
| `TopBar.HardLimitBeatsCookieBar` | src/components/structures/LoggedInView.tsx:675-689 | A resource-limit sync error outranks a wanted cookie bar |
| `TopBar.WatchedInputsDecideTheRest` | src/components/structures/LoggedInView.tsx:186-196 | When only the four watched inputs may differ between two renders, a different banner implies the resize notifier is told |
| `TopBar.HardLimitErrorGoesUnnoticed` | src/components/structures/LoggedInView.tsx:186-196 | A new hard-limit sync error changes the banner without any watched input changing, so the notifier is not told |
| `ServerNotices.FindById` | src/components/structures/LoggedInView.tsx:324 | The event found in a timeline is one of its events and carries the requested id, and none is found exactly when no event has it |
| `ServerNotices.FindByIdIsFirst` | src/components/structures/LoggedInView.tsx:324 | Like `find`, the lookup returns the first event carrying the id: no earlier event of the timeline has it |
| `ServerNotices.IdsToFetch` | src/components/structures/LoggedInView.tsx:318-321 | Only the first `MAX_PINNED_NOTICES_PER_ROOM` (2, declared at line 53) pinned ids of a room are fetched, in order; none when the room has no pinned list |
| `ServerNotices.FetchPinned` | src/components/structures/LoggedInView.tsx:322-325 | The events kept for a room are at most as many as the ids fetched, and their ids are a subsequence of those ids; which ids are kept is stated by `FetchPinnedKeepsExactlyFound` |
| `ServerNotices.CollectNotices` | src/components/structures/LoggedInView.tsx:315-327 | The collected notices number at most two per server-notice room |
| `ServerNotices.RoomNotices` | src/components/structures/LoggedInView.tsx:317-327 | Definition: the events fetched for a room's first pinned ids |
| `ServerNotices.NoticeRefresh` | src/components/structures/LoggedInView.tsx:311-331 | Definition: the value `_updateServerNoticeEvents` writes, `None` when it writes nothing |
| `ServerNotices.FetchFailureIsFinal` | src/components/structures/LoggedInView.tsx:323-327 | Once a fetch fails, the remaining ids of the room are not reached and the refresh fails |
| `ServerNotices.FetchFailsIffMissing` | src/components/structures/LoggedInView.tsx:323-327 | A room's fetch fails exactly when one of its fetched ids has no timeline |
| `ServerNotices.CollectFailureIsFinal` | src/components/structures/LoggedInView.tsx:315-327 | A failing room aborts the whole refresh, whatever the later rooms hold |
| `ServerNotices.FetchRoomNotices` | src/components/structures/LoggedInView.tsx:317-328 | The inner loop over one room's first pinned ids computes that room's contribution, stopping at the first failing fetch |
| `ServerNotices.UpdateServerNoticeEvents` | src/components/structures/LoggedInView.tsx:311-331 | The outer loop computes the refresh function: the pinned events of every server-notice room, in room order, or no state write when the list is missing or a fetch fails |
| `ServerNotices.RoomContribution` | src/components/structures/LoggedInView.tsx:317-327 | One room contributes at most two events, whose ids are a subsequence of its first two pinned ids; a room without a pinned list contributes nothing |
| `ServerNotices.FoundEventsAllKept` | src/components/structures/LoggedInView.tsx:323-327 | When every fetched id's timeline holds its event, all of them are kept, in order |
| `ServerNotices.FetchPinnedKeepsExactlyFound` | src/components/structures/LoggedInView.tsx:322-325 | When every fetch succeeds, the ids of the kept events are exactly the fetched ids whose timeline holds their event, in order (`FoundIds`): an id whose event is missing contributes nothing and every other id contributes its event, which comes from that id's own timeline |
| `ServerNotices.FoundIds` | src/components/structures/LoggedInView.tsx:322-325 | Every id it lists is a fetched id whose timeline holds its event |
| `ServerNotices.MissingEventSkipped` | src/components/structures/LoggedInView.tsx:322-325 | With pinned ids `$a` and `$b`, an empty timeline for `$a` and `$b`'s event in its own, the room's notices are exactly `$b`'s event |
| `ServerNotices.NoListNoWrite` | src/components/structures/LoggedInView.tsx:312-313 | Without an `m.server_notice` list the refresh writes nothing |
| `ServerNotices.FiveIdsYieldTwo` | src/components/structures/LoggedInView.tsx:321-327 | A room with five pinned ids whose first two are fetchable yields exactly those two events |
| `JsString.IndexOf` | src/components/structures/LoggedInView.tsx:539-544 | The index found holds the separator and no earlier character does |
| `JsString.Split` | src/components/structures/LoggedInView.tsx:523 | `split` on a one-character separator always yields at least one piece |
| `JsString.SplitPiecesAreFree` | src/components/structures/LoggedInView.tsx:523 | No piece of `split(c)` contains the separator |
| `JsString.SplitIsSingleIffNoSeparator` | src/components/structures/LoggedInView.tsx:523 | `split(c)` yields a single piece exactly when the separator does not occur, and that piece is then the whole string |
| `JsString.FirstPieceIsPrefix` | src/components/structures/LoggedInView.tsx:539-544 | `split(c)[0]` is a prefix of the string: the whole string when it is the only piece, and otherwise immediately followed by a separator |
| `JsString.JoinSplit` | src/components/structures/LoggedInView.tsx:523 | Joining the pieces back with the separator gives the original string |
| `JsString.LastPiece` | src/components/structures/LoggedInView.tsx:523 | `split(c).pop()` is the separator-free suffix that is either the whole string or starts right after a separator, that is, the text after the last separator |
| `JsString.SecondPiece` | src/components/structures/LoggedInView.tsx:539-544 | `split(c)[1]` is undefined exactly when the separator does not occur, and otherwise the separator-free text from just after the first separator up to the next separator or the end |
| `JsString.SplitAfterPiece` | src/components/structures/LoggedInView.tsx:539-544 | Splitting a separator-free piece, the separator and a rest yields that piece followed by the pieces of the rest |
| `JsNumber.ParseDigits` | src/components/structures/LoggedInView.tsx:262 | After the sign, `parseInt` is NaN exactly when the text is empty or does not start with a digit |
| `JsNumber.TrimStart` | src/components/structures/LoggedInView.tsx:262 | `parseInt`'s leading-whitespace skip removes exactly a run of whitespace and leaves a suffix |
| `JsNumber.ParseInt` | src/components/structures/LoggedInView.tsx:262 | Definition: `parseInt(s, 10)`, whitespace skip, optional sign and leading digits, `None` for NaN |
| `JsNumber.IntToDecimal` | src/components/structures/LoggedInView.tsx:249 | Definition: `'' + n` for an integer, a minus sign before the decimal digits of a negative number |
| `JsNumber.ParseIntNaN` | src/components/structures/LoggedInView.tsx:262-265 | `parseInt` is NaN exactly when, after whitespace and an optional sign, no digit follows |
| `JsNumber.ParseIntOfDecimal` | src/components/structures/LoggedInView.tsx:249 | Reading back `'' + n` with `parseInt` gives `n` for every integer |
| `JsNumber.ParseIntOfDigitsText` | src/components/structures/LoggedInView.tsx:262 | `parseInt` reads the digits up to the first non-digit and ignores the rest |
| `JsNumber.NegativeParse` | src/components/structures/LoggedInView.tsx:262 | After a minus sign `parseInt` yields the negation of what the digits that follow parse to |
| `LhsSize.MissingLoadsDefault` | src/components/structures/LoggedInView.tsx:261-266 | A missing `mx_lhs_size` entry reads as `"null"` and loads the default width 350 |
| `LhsSize.NonNumericLoadsDefault` | src/components/structures/LoggedInView.tsx:261-266 | A stored value that parses to NaN loads the default width 350 |
| `LhsSize.ResizedSizeReloads` | src/components/structures/LoggedInView.tsx:248-251 | The width stored by `onResized` is the width loaded next time |
| `LhsSize.CollapsedReloadsZero` | src/components/structures/LoggedInView.tsx:241-244 | After a collapse the stored "0" loads as width 0 |
| `LhsSize.TrailingTextIgnored` | src/components/structures/LoggedInView.tsx:262 | A stored width followed by non-digit text (such as a unit) loads as that width |
| `LhsSize.StoredText` | src/components/structures/LoggedInView.tsx:262 | Definition: `getItem("mx_lhs_size")` as text, `"null"` when the key is missing |
| `LhsSize.LoadedLhsSize` | src/components/structures/LoggedInView.tsx:261-266 | Definition: the parsed stored width, or 350 when it parses to NaN |
| `DragDrop.TagOf` | src/components/structures/LoggedInView.tsx:539-542 | The tag read from a droppable id is `split('_')[1]`; it is never the text "undefined" and has no underscore, and there is none exactly when the id has no underscore or its second piece is "undefined" |
| `DragDrop.RoomTileEndDrag` | src/components/structures/LoggedInView.tsx:538-555 | A room-tile drop dispatches a synchronous tag-room action for the room `draggableId.split('_')[1]`, from the source list's tag to the destination list's tag (each `split('_')[1]`, "undefined" read as none), carrying the source and destination indices |
| `DragDrop.DragEnd` | src/components/structures/LoggedInView.tsx:513-536 | A drag end dispatches at most one action, always synchronously, and nothing when there is no destination |
| `DragDrop.TagRoundTrip` | src/components/structures/LoggedInView.tsx:539-542 | A tag without underscores put after the `room-sub-list-droppable_` prefix is read back unchanged, except "undefined", which reads as no tag |
| `DragDrop.TagWithUnderscoreIsCut` | src/components/structures/LoggedInView.tsx:539-542 | A tag containing an underscore is read back only up to its first underscore, never whole |
| `DragDrop.TagPanelDropMovesLastWord` | src/components/structures/LoggedInView.tsx:519-532 | A drop on the tag panel moves the tag named by the last space-separated word of the draggable id to the destination index, synchronously |
| `DragDrop.KindAndIdNamesId` | src/components/structures/LoggedInView.tsx:521-522 | A draggable id of the form "kind id" names `id` |
| `DragDrop.SubListDropTagsRoom` | src/components/structures/LoggedInView.tsx:533-534 | A drop on a room sub-list re-tags the room |
| `DragDrop.SubListMoveTagsRoom` | src/components/structures/LoggedInView.tsx:513-555 | Dragging the tile "<kind>_<room id>" from the sub-list of tag `a` to that of tag `b` dispatches exactly one synchronous tag-room action moving that room from `a` to `b` with both indices |
| `DragDrop.OtherDropDoesNothing` | src/components/structures/LoggedInView.tsx:520-535 | A drop on a droppable that is neither the tag panel nor a room sub-list dispatches nothing |
| `ClickDetection.SingleClassName` | src/components/structures/LoggedInView.tsx:562 | A class attribute without spaces is one class name, and it marks the background exactly when it is one of the three background classes |
| `ClickDetection.IsBackground` | src/components/structures/LoggedInView.tsx:562-567 | Definition: one of the whole class names is `mx_MatrixChat`, `mx_MatrixChat_middlePanel` or `mx_RoomView` |
| `ClickDetection.SqrtBelowRadius` | src/components/structures/LoggedInView.tsx:583-587 | `sqrt(s) < 5` exactly when `s < 25`, so the distance test needs no square root |
| `ClickDetection.IsClickAsWritten` | src/components/structures/LoggedInView.tsx:583-587 | Definition: the release test as written, `0 <= dx*dx + (dy + dy) < 25` |
| `ClickDetection.IsClick` | src/components/structures/LoggedInView.tsx:583-587 | Definition: the intended release test, `dx*dx + dy*dy < 25` |
| `ClickDetection.AsWrittenMisjudges` | src/components/structures/LoggedInView.tsx:583 | The formula as written accepts a 10-pixel vertical drag and rejects a 1-pixel upward move |
| `ClickDetection.IsClickIsDisc` | src/components/structures/LoggedInView.tsx:583-587 | The intended test is symmetric in both axes and their swap, never accepts a move of 5 pixels or more along an axis, and accepts every move of at most 3 pixels along each axis |
| `Shell.LoggedInView.constructor` | src/components/structures/LoggedInView.tsx:142-177 | The initial state: no sync error, no press, compact layout from the setting, and, because the constructor's own `setState` calls are ignored before mount, no generated-password flag and no notices |
| `Shell.LoggedInView.ReceiveProps` | src/components/structures/LoggedInView.tsx:186-196 | A re-render with new props replaces the props that the handlers, the banner choice and `componentDidUpdate` read; nothing else changes |
| `Shell.LoggedInView.SetStateFromSessionStore` | src/components/structures/LoggedInView.tsx:226-230 | A generated password is pending exactly when a non-empty one is cached |
| `Shell.LoggedInView.OnCollapsed` | src/components/structures/LoggedInView.tsx:240-247 | Collapsing hides the left panel synchronously and stores "0"; expanding shows it and leaves the store alone |
| `Shell.LoggedInView.OnResized` | src/components/structures/LoggedInView.tsx:248-251 | The width is stored as decimal text, the notifier is told, and the stored width loads back as the same number |
| `Shell.LoggedInView.LoadResizerPreferences` | src/components/structures/LoggedInView.tsx:261-267 | The first handle is resized to the stored width, or 350 |
| `Shell.LoggedInView.OnAccountData` | src/components/structures/LoggedInView.tsx:269-278 | The web settings event sets the compact layout; the ignored-users event dispatches `ignore_state_changed` asynchronously; nothing else changes |
| `Shell.LoggedInView.OnSync` | src/components/structures/LoggedInView.tsx:280-302 | Nothing changes when the previous state is strictly equal to the new one (the first sync's `null` equals none) and the error code is unchanged (`null` differs from `undefined`); otherwise the payload is kept in ERROR and cleared to `null` in every other state, and PREPARED to SYNCING refreshes the notices |
| `Shell.LoggedInView.OnRoomStateEvents` | src/components/structures/LoggedInView.tsx:304-309 | The notices are refreshed exactly when the event's room is a server-notice room |
| `Shell.LoggedInView.UpdateServerNoticeEvents` | src/components/structures/LoggedInView.tsx:311-331 | The cached notices become the refreshed list, or stay when the refresh writes nothing |
| `Shell.LoggedInView.OnPaste` | src/components/structures/LoggedInView.tsx:333-347 | The composer is focused synchronously exactly when no element on the target's parent chain takes input |
| `Shell.LoggedInView.OnReactKeyDown` | src/components/structures/LoggedInView.tsx:371-375 | Every bubbled key event is classified, and its dispatches go on the bus |
| `Shell.LoggedInView.OnNativeKeyDown` | src/components/structures/LoggedInView.tsx:377-384 | A document-level key event is classified only when the body is its target, and left untouched otherwise |
| `Shell.LoggedInView.OnDragEnd` | src/components/structures/LoggedInView.tsx:513-536 | The drag-end dispatches go on the bus |
| `Shell.LoggedInView.OnMouseDown` | src/components/structures/LoggedInView.tsx:557-576 | With both side panels disabled, a press on a background element is remembered with its page coordinates; otherwise nothing changes |
| `Shell.LoggedInView.OnMouseUp` | src/components/structures/LoggedInView.tsx:578-597 | Without a remembered press nothing happens; with one, the settings close (asynchronous dispatch) exactly when `0 <= dx*dx + 2*dy < 25`, the code's `sqrt(dx*dx + (dy + dy)) < 5` with a negative sum giving NaN, and the press is forgotten in any case |
| `Shell.LoggedInView.Chrome` | src/components/structures/LoggedInView.tsx:674-708 | Definition: the banner and body classes rendered from the current props and state |
| `Shell.LoggedInView.BannerInputs` | src/components/structures/LoggedInView.tsx:667-700 | Definition: the state and props the banner choice of `render` reads, from the current props and state |
| `Shell.LoggedInView.BannerInputsFrom` | src/components/structures/LoggedInView.tsx:186-196 | Definition: the same inputs built from given props and a given generated-password flag, so `componentDidUpdate` can compare the previous render's with the current one |
| `Shell.LoggedInView.ComponentDidUpdate` | src/components/structures/LoggedInView.tsx:186-196 | The resize notifier is told of a banner change exactly when one of the four watched inputs changed |

## Left out

- The resizer engine (`Resizer`, `CollapseDistributor`, class names) is not part of this model; the model keeps only the two callbacks and the width applied to the first handle.
- The keyboard predicates `isOnlyCtrlOrCmdKeyEvent` and `isOnlyCtrlOrCmdIgnoreShiftKeyEvent` depend on the operating system; they are inputs of the key event.
- The scroll forwarding of `_onScrollKeyPressed` depends on whether the room view is mounted; the model records only that the event was forwarded.
- The keyboard-shortcuts dialog and the platform hook are outside the component; the dialog toggle is recorded as a flag, and the platform's answer is an input.
- `_updateServerNoticeEvents` is asynchronous. The model runs it to completion at once, so interleavings with other handlers are not modelled. A fetch that rejects is modelled as an id with no timeline; it aborts the refresh before the state write.
- `setState` batching and re-render timing are not modelled; each handler's writes take effect at once.
- Listener registration and removal in the constructor and `componentWillUnmount`, `shouldComponentUpdate`, `canResetTimelineInRoom` and `CallMediaHandler.loadDevices` are lifecycle plumbing with no decision to model.
- The page switch of `render` only picks which child component to mount; it is not modelled. The props passed to the banners and children are not modelled either.
- Page coordinates are integers and sizes are integers: fractional pixel values and the decimal formatting of numbers at or above 10^21 are not modelled.
- `JsNumber.IsJsWhitespace` lists the common whitespace characters that `parseInt` skips; the other Unicode space separators (category Zs) are not listed.
- The `checkingForUpdate` prop is an object in the component; only its truthiness matters here, so it is a boolean.
- `Shell.LoggedInView.OnMouseDown` takes the target's `className` to be a string. For an SVG target it is an `SVGAnimatedString`, and the `split` call throws a TypeError. The state is unchanged in that case too, so the model's "otherwise nothing changes" outcome covers it.
- `_onRoomTileEndDrag` looks the room up with `getRoom(roomId)`; the model passes the room id instead.

## Findings

| source | as written | input that shows it | evidently intended | confidence | as-written member | corrected member |
|---|---|---|---|---|---|---|
| src/components/structures/LoggedInView.tsx:583 | `Math.sqrt(deltaX*deltaX + (deltaY + deltaY))`: the y delta is doubled, not squared | a 10-pixel vertical drag (0, 10) counts as a click; a 1-pixel upward move (0, -1) gives the square root of a negative number (NaN) and is not a click | the Euclidean distance `sqrt(deltaX*deltaX + deltaY*deltaY) < 5` | high; not executed | `ClickDetection.AsWrittenMisjudges` | `ClickDetection.IsClickIsDisc` |

=== FILE: actions.dfy ===
/** The messages the shell publishes on the application-wide action bus. */
module Actions {
  import opened Wrappers

  /** The right-hand panel `toggle_right_panel` names. */
  datatype RightPanel = RoomPanel | GroupPanel

  /** One abstract action message, `{action: ..., ...fields}`. */
  datatype Action =
    | HideLeftPanel                               // hide_left_panel
    | ShowLeftPanel                               // show_left_panel
    | FocusRoomFilter                             // focus_room_filter
    | ToggleTopLeftMenu                           // toggle_top_left_menu
    | ViewRoomDelta(delta: int, unread: bool)     // view_room_delta
    | ToggleRightPanel(panel: RightPanel)         // toggle_right_panel
    | FocusComposer                               // focus_composer
    | CloseSettings                               // close_settings
    | IgnoreStateChanged                          // ignore_state_changed
    | MoveTag(tag: string, index: int)            // TagOrderActions.moveTag
    | TagRoom(roomId: Option<string>, prevTag: Option<string>, newTag: Option<string>,
              oldIndex: int, newIndex: int)       // RoomListActions.tagRoom

  /** A call `dis.dispatch(action, sync)`; `sync` forces immediate delivery. */
  datatype Dispatch = Dispatch(action: Action, sync: bool)
}

=== FILE: click_detection.dfy ===
/**
 * Click-versus-drag detection on the shell's background (`_onMouseDown`,
 * `_onMouseUp`): a press on the background while both side panels are disabled
 * is remembered, and a release close enough to it closes the open settings page.
 */
module ClickDetection {
  import opened JsString

  /** The radius, in pixels, within which a press and release count as a click. */
  const MaxRadius: int := 5

  /** Page coordinates of a mouse event, in whole pixels. */
  datatype Point = Point(x: int, y: int)

  /** The class names of the target, `className.split(' ')`. */
  function ClassList(className: string): seq<string> {
    Split(className, ' ')
  }

  /** The press target is the shell's background: one of its classes is one of the three background classes. */
  predicate IsBackground(className: string) {
    var classes := ClassList(className);
    "mx_MatrixChat" in classes || "mx_MatrixChat_middlePanel" in classes || "mx_RoomView" in classes
  }

  /** A class attribute without spaces is one class name, background exactly when it is one of the three. */
  lemma SingleClassName(c: string)
    requires ' ' !in c
    ensures ClassList(c) == [c]
    ensures IsBackground(c) <==> c == "mx_MatrixChat" || c == "mx_MatrixChat_middlePanel" || c == "mx_RoomView"
  {
    SplitIsSingleIffNoSeparator(c, ' ');
  }

  /**
   * The release test as the code computes it: `Math.sqrt(dx*dx + (dy + dy)) < 5`.
   * The square root of a negative sum is NaN, which fails `< 5`; for a sum `s >= 0`,
   * `sqrt(s) < 5` holds exactly when `s < 25` (see `SqrtBelowRadius`).
   */
  predicate IsClickAsWritten(dx: int, dy: int) {
    0 <= dx * dx + (dy + dy) < MaxRadius * MaxRadius
  }

  /** The evidently intended test: Euclidean distance below the radius, `sqrt(dx*dx + dy*dy) < 5`. */
  predicate IsClick(dx: int, dy: int) {
    dx * dx + dy * dy < MaxRadius * MaxRadius
  }

  /** For a non-negative sum `s` with square root `r`, `r < 5` exactly when `s < 25`. */
  lemma SqrtBelowRadius(s: int, r: real)
    requires s >= 0 && r >= 0.0 && r * r == s as real
    ensures r < MaxRadius as real <==> s < MaxRadius * MaxRadius
  {
    if r < 5.0 {
      assert r * r < 25.0 by {
        assert r * r <= r * 5.0;
        assert r * 5.0 < 25.0;
      }
    } else {
      assert r * r >= 25.0 by {
        assert r * r >= r * 5.0;
      }
    }
  }

  /** The formula as written misjudges both ways: a 10-pixel vertical drag passes, a 1-pixel upward slip fails. */
  lemma AsWrittenMisjudges()
    ensures IsClickAsWritten(0, 10) && !IsClick(0, 10)
    ensures !IsClickAsWritten(0, -1) && IsClick(0, -1)
  {
  }

  /**
   * The intended test is a disc: it does not depend on the direction of the
   * movement, a click never moves 5 pixels or more along either axis, and every
   * move of at most 3 pixels along each axis is a click.
   */
  lemma {:induction false} IsClickIsDisc(dx: int, dy: int)
    ensures IsClick(dx, dy) == IsClick(-dx, dy) == IsClick(dx, -dy) == IsClick(dy, dx)
    ensures IsClick(dx, dy) ==> -MaxRadius < dx < MaxRadius && -MaxRadius < dy < MaxRadius
    ensures -3 <= dx <= 3 && -3 <= dy <= 3 ==> IsClick(dx, dy)
  {
    assert (-dx) * (-dx) == dx * dx;
    assert (-dy) * (-dy) == dy * dy;
    if dx >= MaxRadius || dx <= -MaxRadius {
      assert dx * dx >= 25 by {
        if dx >= 5 { assert dx * dx >= 5 * dx; } else { assert dx * dx >= -5 * dx; }
      }
      assert dy * dy >= 0;
    }
    if -3 <= dx <= 3 && -3 <= dy <= 3 {
      assert dx * dx <= 9 by { SquareAtMost3(dx); }
      assert dy * dy <= 9 by { SquareAtMost3(dy); }
    }
    if dy >= MaxRadius || dy <= -MaxRadius {
      assert dy * dy >= 25 by {
        if dy >= 5 { assert dy * dy >= 5 * dy; } else { assert dy * dy >= -5 * dy; }
      }
      assert dx * dx >= 0;
    }
  }

  /** A number between -3 and 3 squares to at most 9. */
  lemma SquareAtMost3(n: int)
    requires -3 <= n <= 3
    ensures n * n <= 9
  {
    if n < 0 {
      assert n * n == (-n) * (-n);
      assert (-n) * (-n) <= 3 * (-n);
    } else {
      assert n * n <= 3 * n;
    }
  }
}

=== FILE: dom.dfy ===
/**
 * The slice of the DOM the shell inspects: an element's tag name, its
 * `contenteditable` attribute and its chain of parent elements.
 */
module Dom {
  import opened Wrappers

  /**
   * An element. `contentEditable` is the result of `getAttribute("contenteditable")`
   * (`None` when the attribute is missing); `parent` is `parentElement`.
   */
  datatype Element = Element(tagName: string, contentEditable: Option<string>, parent: Option<Element>)

  /**
   * `canElementReceiveInput`: an INPUT, TEXTAREA or SELECT element, or one whose
   * `contenteditable` attribute is present and non-empty (any non-empty value,
   * "false" included, is truthy).
   */
  predicate CanReceiveInput(el: Element) {
    el.tagName == "INPUT" || el.tagName == "TEXTAREA" || el.tagName == "SELECT"
    || (el.contentEditable.Some? && el.contentEditable.value != "")
  }

  /** The element followed by its ancestors, nearest first. */
  function Ancestry(el: Element): (chain: seq<Element>)
    ensures |chain| >= 1 && chain[0] == el
    decreases el
  {
    match el.parent
    case None => [el]
    case Some(p) => [el] + Ancestry(p)
  }

  /** Some element on the parent chain starting at `el` (itself included) can receive input. */
  predicate InputInAncestry(el: Element)
    decreases el
  {
    CanReceiveInput(el) || (el.parent.Some? && InputInAncestry(el.parent.value))
  }

  /** The recursive predicate agrees with a search over the whole ancestry. */
  lemma {:induction false} InputInAncestryIsSearch(el: Element)
    ensures InputInAncestry(el) <==>
      exists k :: 0 <= k < |Ancestry(el)| && CanReceiveInput(Ancestry(el)[k])
    decreases el
  {
    match el.parent
    case None =>
      assert Ancestry(el) == [el];
      if CanReceiveInput(el) {
        assert CanReceiveInput(Ancestry(el)[0]);
      }
    case Some(p) =>
      InputInAncestryIsSearch(p);
      var chain := Ancestry(el);
      assert chain == [el] + Ancestry(p);
      if InputInAncestry(el) {
        if CanReceiveInput(el) {
          assert CanReceiveInput(Ancestry(el)[0]);
          assert exists j :: 0 <= j < |Ancestry(el)| && CanReceiveInput(Ancestry(el)[j]);
        } else {
          var k :| 0 <= k < |Ancestry(p)| && CanReceiveInput(Ancestry(p)[k]);
          assert CanReceiveInput(Ancestry(el)[k + 1]);
          assert exists j :: 0 <= j < |Ancestry(el)| && CanReceiveInput(Ancestry(el)[j]);
        }
      } else {
        forall k | 0 <= k < |chain|
          ensures !CanReceiveInput(chain[k])
        {
          if k > 0 {
            assert chain[k] == Ancestry(p)[k - 1];
          }
        }
      }
  }

  /**
   * The loop of `_onPaste`: walk from the target up the parent chain until an
   * element that can receive input is found or the chain ends.
   */
  method AnyAncestorReceivesInput(target: Element) returns (canReceiveInput: bool)
    ensures canReceiveInput == InputInAncestry(target)
  {
    canReceiveInput := false;
    var element: Option<Element> := Some(target);
    while !canReceiveInput && element.Some?
      invariant canReceiveInput ==> InputInAncestry(target)
      invariant !canReceiveInput ==>
        (InputInAncestry(target) <==> element.Some? && InputInAncestry(element.value))
      decreases element
    {
      canReceiveInput := CanReceiveInput(element.value);
      element := element.value.parent;
    }
  }
}

=== FILE: drag_drop.dfy ===
/**
 * The end of a drag-and-drop gesture (`_onDragEnd`, `_onRoomTileEndDrag`): the
 * destination decides between reordering a tag in the tag panel and moving a
 * room between room sub-lists, and the ids involved are parsed out of the
 * draggable and droppable ids.
 */
module DragDrop {
  import opened Wrappers
  import opened Actions
  import opened JsString

  const TagPanelDroppable := "tag-panel-droppable"
  const RoomSubListPrefix := "room-sub-list-droppable_"

  /** Where a draggable was picked up or dropped. */
  datatype Location = Location(droppableId: string, index: int)

  /** The drag result; `destination` is `None` when dropped outside every droppable. */
  datatype DropResult = DropResult(draggableId: string, source: Location, destination: Option<Location>)

  /** `droppableId.split('_')[1]`, with the string 'undefined' read as no tag. */
  function TagOf(droppableId: string): (r: Option<string>)
    ensures r.Some? ==> r.value != "undefined" && '_' !in r.value
    ensures r.None? <==> '_' !in droppableId || SecondPiece(droppableId, '_') == Some("undefined")
    ensures r.Some? ==> r == SecondPiece(droppableId, '_')
  {
    var piece := SecondPiece(droppableId, '_');
    if piece == Some("undefined") then None else piece
  }

  /** `_onRoomTileEndDrag`: tag the room with the destination list's tag, synchronously. */
  function RoomTileEndDrag(result: DropResult): (d: Dispatch)
    requires result.destination.Some?
    ensures d.sync && d.action.TagRoom?
    ensures d.action.oldIndex == result.source.index && d.action.newIndex == result.destination.value.index
    ensures d.action.roomId == SecondPiece(result.draggableId, '_')
    ensures d.action.prevTag == TagOf(result.source.droppableId)
    ensures d.action.newTag == TagOf(result.destination.value.droppableId)
  {
    var dest := result.destination.value;
    Dispatch(TagRoom(SecondPiece(result.draggableId, '_'), TagOf(result.source.droppableId),
                     TagOf(dest.droppableId), result.source.index, dest.index), true)
  }

  /** `_onDragEnd`: the dispatches a finished drag causes. */
  function DragEnd(result: DropResult): (ds: seq<Dispatch>)
    ensures |ds| <= 1
    ensures result.destination.None? ==> ds == []
    ensures |ds| == 1 ==> ds[0].sync
  {
    match result.destination
    case None => []
    case Some(dest) =>
      if dest.droppableId == TagPanelDroppable then
        [Dispatch(MoveTag(LastPiece(result.draggableId, ' '), dest.index), true)]
      else if RoomSubListPrefix <= dest.droppableId then
        [RoomTileEndDrag(result)]
      else []
  }

  // ---- properties of the id parsing ----

  /**
   * Sub-list droppable ids are the prefix followed by the tag name: a tag without
   * '_' other than the string 'undefined' is read back unchanged, and the list whose
   * tag name is 'undefined' reads as no tag.
   */
  lemma TagRoundTrip(tag: string)
    requires '_' !in tag
    ensures TagOf(RoomSubListPrefix + tag) == if tag == "undefined" then None else Some(tag)
  {
    var pre := "room-sub-list-droppable";
    assert '_' !in pre;
    assert RoomSubListPrefix + tag == pre + ['_'] + tag;
    SplitAfterPiece(pre, '_', tag);
    SplitIsSingleIffNoSeparator(tag, '_');
  }

  /** A tag name containing '_' is cut at its first '_'. */
  lemma TagWithUnderscoreIsCut(tag: string)
    requires '_' in tag
    ensures TagOf(RoomSubListPrefix + tag) == (if Split(tag, '_')[0] == "undefined" then None else Some(Split(tag, '_')[0]))
    ensures TagOf(RoomSubListPrefix + tag) != Some(tag)
  {
    var pre := "room-sub-list-droppable";
    assert '_' !in pre;
    assert RoomSubListPrefix + tag == pre + ['_'] + tag;
    SplitAfterPiece(pre, '_', tag);
    SplitPiecesAreFree(tag, '_');
  }

  /** Dropping on the tag panel moves the tag named by the last space-separated word of the draggable id. */
  lemma TagPanelDropMovesLastWord(result: DropResult)
    requires result.destination.Some? && result.destination.value.droppableId == TagPanelDroppable
    ensures var tag := LastPiece(result.draggableId, ' ');
      DragEnd(result) == [Dispatch(MoveTag(tag, result.destination.value.index), true)]
      && ' ' !in tag && tag == result.draggableId[|result.draggableId| - |tag|..]
      && (' ' !in result.draggableId ==> tag == result.draggableId)
  {
    SplitIsSingleIffNoSeparator(result.draggableId, ' ');
  }

  /** For "<kind> <id>" with two space-free words, the moved tag is the second word. */
  lemma KindAndIdNamesId(kind: string, id: string)
    requires ' ' !in kind && ' ' !in id
    ensures LastPiece(kind + " " + id, ' ') == id
  {
    SplitAfterPiece(kind, ' ', id);
    SplitIsSingleIffNoSeparator(id, ' ');
  }

  /** Dropping on a room sub-list tags the room with the lists' tags and keeps both indices. */
  lemma SubListDropTagsRoom(result: DropResult)
    requires result.destination.Some?
    requires RoomSubListPrefix <= result.destination.value.droppableId
    ensures DragEnd(result) == [RoomTileEndDrag(result)]
  {
    assert result.destination.value.droppableId != TagPanelDroppable by {
      assert TagPanelDroppable[0] != RoomSubListPrefix[0];
    }
  }

  /**
   * Moving the room tile "<kind>_<room id>" from the sub-list of tag `a` to the
   * sub-list of tag `b` (neither the text 'undefined', none of the names with '_')
   * tags exactly that room from `a` to `b`, synchronously, with both indices.
   */
  lemma SubListMoveTagsRoom(kind: string, roomId: string, a: string, b: string, i: int, j: int)
    requires '_' !in kind && '_' !in roomId && '_' !in a && '_' !in b
    requires a != "undefined" && b != "undefined"
    ensures DragEnd(DropResult(kind + "_" + roomId, Location(RoomSubListPrefix + a, i),
                               Some(Location(RoomSubListPrefix + b, j))))
      == [Dispatch(TagRoom(Some(roomId), Some(a), Some(b), i, j), true)]
  {
    var result := DropResult(kind + "_" + roomId, Location(RoomSubListPrefix + a, i),
                             Some(Location(RoomSubListPrefix + b, j)));
    SubListDropTagsRoom(result);
    TagRoundTrip(a);
    TagRoundTrip(b);
    SplitAfterPiece(kind, '_', roomId);
    SplitIsSingleIffNoSeparator(roomId, '_');
    assert kind + "_" + roomId == kind + ['_'] + roomId;
  }

  /** A drop on any other droppable, neither the tag panel nor a room sub-list, dispatches nothing. */
  lemma OtherDropDoesNothing(result: DropResult)
    requires result.destination.Some?
    requires result.destination.value.droppableId != TagPanelDroppable
    requires !(RoomSubListPrefix <= result.destination.value.droppableId)
    ensures DragEnd(result) == []
  {
  }
}

=== FILE: js_number.dfy ===
/**
 * Integer <-> string conversions as JavaScript performs them: `parseInt(s, 10)`
 * and the string concatenation `'' + n` for an integral number `n`.
 * `NaN` is represented by `None`.
 */
module JsNumber {
  import opened Wrappers

  /** The white-space and line-terminator characters `parseInt` skips at the start. */
  predicate IsJsWhitespace(c: char) {
    c == ' ' || c == '\t' || c == '\n' || c == '\r' || c == '\U{000B}' || c == '\U{000C}'
    || c == '\U{00A0}' || c == '\U{FEFF}' || c == '\U{2028}' || c == '\U{2029}'
  }

  predicate IsDigit(c: char) {
    '0' <= c <= '9'
  }

  function DigitValue(c: char): (d: nat)
    requires IsDigit(c)
    ensures d < 10
  {
    (c - '0') as nat
  }

  function DigitChar(d: nat): (c: char)
    requires d < 10
    ensures IsDigit(c) && DigitValue(c) == d
  {
    ('0' as int + d) as char
  }

  predicate AllDigits(s: string) {
    forall i :: 0 <= i < |s| ==> IsDigit(s[i])
  }

  /** `s` with its leading white space removed. */
  function TrimStart(s: string): (r: string)
    ensures |r| <= |s| && r == s[|s| - |r|..]
    ensures r == [] || !IsJsWhitespace(r[0])
    ensures forall i :: 0 <= i < |s| - |r| ==> IsJsWhitespace(s[i])
    decreases |s|
  {
    if |s| > 0 && IsJsWhitespace(s[0]) then TrimStart(s[1..]) else s
  }

  /** The longest prefix of `s` made of decimal digits. */
  function LeadingDigits(s: string): (ds: string)
    ensures ds <= s && AllDigits(ds)
    ensures |ds| == |s| || !IsDigit(s[|ds|])
    decreases |s|
  {
    if |s| > 0 && IsDigit(s[0]) then [s[0]] + LeadingDigits(s[1..]) else []
  }

  /** The value of a string of decimal digits, most significant first. */
  function DigitsValue(ds: string): nat
    requires AllDigits(ds)
    decreases |ds|
  {
    if ds == [] then 0 else DigitsValue(ds[..|ds| - 1]) * 10 + DigitValue(ds[|ds| - 1])
  }

  /**
   * `parseInt(s, 10)`: skip leading white space, take an optional sign, then the
   * longest run of decimal digits; `None` (NaN) when that run is empty.
   */
  function ParseInt(s: string): Option<int> {
    ParseSigned(TrimStart(s))
  }

  /** `parseInt` after the white space: an optional sign, then the digits. */
  function ParseSigned(t: string): Option<int> {
    if |t| > 0 && t[0] == '-' then
      match ParseDigits(t[1..])
      case None => None
      case Some(v) => Some(0 - v as int)
    else if |t| > 0 && t[0] == '+' then ParseDigits(t[1..])
    else ParseDigits(t)
  }

  /** `parseInt` after the sign: the value of the leading digits, `None` when there are none. */
  function ParseDigits(body: string): (r: Option<int>)
    ensures r.None? <==> body == [] || !IsDigit(body[0])
  {
    var ds := LeadingDigits(body);
    if ds == [] then None else Some(DigitsValue(ds) as int)
  }

  /** The decimal spelling of a natural number, without leading zeros. */
  function NatToDecimal(n: nat): (s: string)
    ensures |s| >= 1 && AllDigits(s)
    ensures |s| > 1 ==> s[0] != '0'
    decreases n
  {
    if n < 10 then [DigitChar(n)] else NatToDecimal(n / 10) + [DigitChar(n % 10)]
  }

  /** `'' + n` for an integral number `n`. */
  function IntToDecimal(n: int): (s: string)
    ensures |s| >= 1
    ensures n < 0 <==> s[0] == '-'
  {
    if n < 0 then "-" + NatToDecimal(-n) else NatToDecimal(n)
  }

  /** Reading back the decimal spelling of a natural number gives the number. */
  lemma {:induction false} DigitsValueOfDecimal(n: nat)
    ensures DigitsValue(NatToDecimal(n)) == n
    decreases n
  {
    if n >= 10 {
      DigitsValueOfDecimal(n / 10);
      var s := NatToDecimal(n);
      assert s[..|s| - 1] == NatToDecimal(n / 10);
    }
  }

  /** Digits followed by text that does not start with a digit parse to the digits' value. */
  lemma ParseDigitsStopsAtNonDigit(ds: string, rest: string)
    requires |ds| > 0 && AllDigits(ds)
    requires rest == [] || !IsDigit(rest[0])
    ensures ParseDigits(ds + rest) == Some(DigitsValue(ds) as int)
  {
    LeadingDigitsThenText(ds, rest);
  }

  /** Text that does not start with white space is left as it is by the white-space skip. */
  lemma TrimStartOfNonSpace(s: string)
    requires s != [] && !IsJsWhitespace(s[0])
    ensures TrimStart(s) == s
  {
  }

  /** Without a sign, the digits are read from the first character. */
  lemma ParseSignedOfDigitStart(body: string)
    requires body != [] && IsDigit(body[0])
    ensures ParseSigned(body) == ParseDigits(body)
  {
  }

  /** After a minus, the digits are read from the next character and negated. */
  lemma ParseSignedOfMinus(body: string)
    ensures ParseSigned(['-'] + body) ==
      match ParseDigits(body) case None => None case Some(v) => Some(0 - v)
  {
    assert (['-'] + body)[1..] == body;
  }

  /**
   * A digit run followed by text that does not start with a digit parses to the
   * run's value: the trailing text is ignored.
   */
  lemma ParseIntOfDigitsText(ds: string, rest: string)
    requires |ds| > 0 && AllDigits(ds)
    requires rest == [] || !IsDigit(rest[0])
    ensures ParseInt(ds + rest) == Some(DigitsValue(ds) as int)
  {
    var s := ds + rest;
    assert s[0] == ds[0];
    assert IsDigit(s[0]);
    TrimStartOfNonSpace(s);
    ParseSignedOfDigitStart(s);
    ParseDigitsStopsAtNonDigit(ds, rest);
  }

  /** After a minus sign, `parseInt` negates what the digits that follow parse to. */
  lemma NegativeParse(body: string, v: int)
    requires ParseDigits(body) == Some(v)
    ensures ParseInt(['-'] + body) == Some(0 - v)
  {
    TrimStartOfNonSpace(['-'] + body);
    ParseSignedOfMinus(body);
  }

  /** The digits of a decimal spelling read back as the number. */
  lemma ParseDigitsOfDecimal(m: nat)
    ensures ParseDigits(NatToDecimal(m)) == Some(m)
  {
    var ds := NatToDecimal(m);
    assert ds + [] == ds;
    ParseDigitsStopsAtNonDigit(ds, []);
    DigitsValueOfDecimal(m);
  }

  /** `parseInt('' + n, 10) == n` for every integer `n`. */
  lemma {:induction false} ParseIntOfDecimal(n: int)
    ensures ParseInt(IntToDecimal(n)) == Some(n)
  {
    var m: nat := if n < 0 then -n else n;
    var ds := NatToDecimal(m);
    ParseDigitsOfDecimal(m);
    if n < 0 {
      assert IntToDecimal(n) == ['-'] + ds;
      NegativeParse(ds, m);
    } else {
      assert IntToDecimal(n) == ds;
      TrimStartOfNonSpace(ds);
      ParseSignedOfDigitStart(ds);
    }
  }

  /** The leading digits of a digit string followed by a non-digit are that digit string. */
  lemma {:induction false} LeadingDigitsThenText(ds: string, rest: string)
    requires AllDigits(ds)
    requires rest == [] || !IsDigit(rest[0])
    ensures LeadingDigits(ds + rest) == ds
    decreases |ds|
  {
    if ds != [] {
      LeadingDigitsThenText(ds[1..], rest);
      assert (ds + rest)[1..] == ds[1..] + rest;
    } else {
      assert ds + rest == rest;
    }
  }

  /** `parseInt` is NaN exactly when no digit follows the white space and the optional sign. */
  lemma ParseIntNaN(s: string)
    ensures ParseInt(s).None? <==>
      var t := TrimStart(s);
      var body := if |t| > 0 && (t[0] == '-' || t[0] == '+') then t[1..] else t;
      body == [] || !IsDigit(body[0])
  {
  }
}

=== FILE: js_string.dfy ===
/**
 * The JavaScript string operations the shell relies on, over `seq<char>`:
 * `String.prototype.split` with a one-character separator, `pop()` of the
 * resulting array and `split(...)[1]`.
 */
module JsString {
  import opened Wrappers

  /** `s.indexOf(c)` for a character known to occur in `s`. */
  function IndexOf(s: string, c: char): (i: nat)
    requires c in s
    ensures i < |s| && s[i] == c && c !in s[..i]
  {
    if s[0] == c then 0 else 1 + IndexOf(s[1..], c)
  }

  /**
   * `s.split(sep)` for a one-character separator: the pieces between separators.
   * Built from the left, one character at a time.
   */
  function Split(s: string, sep: char): (parts: seq<string>)
    ensures |parts| >= 1
    decreases |s|
  {
    if s == [] then [[]] else Extend(Split(s[..|s| - 1], sep), s[|s| - 1], sep)
  }

  /** One character read by `split`: a separator opens a new piece, any other character extends the last one. */
  function Extend(parts: seq<string>, c: char, sep: char): (r: seq<string>)
    requires |parts| >= 1
    ensures |r| >= 1
  {
    if c == sep then parts + [[]] else parts[..|parts| - 1] + [parts[|parts| - 1] + [c]]
  }

  /** `Split` of a string with one more character. */
  lemma SplitSnoc(s: string, c: char, sep: char)
    ensures Split(s + [c], sep) == Extend(Split(s, sep), c, sep)
  {
    assert (s + [c])[..|s|] == s;
  }

  /** Extending the pieces leaves a first piece in front untouched. */
  lemma ExtendCons(a: string, q: seq<string>, c: char, sep: char)
    requires |q| >= 1
    ensures Extend([a] + q, c, sep) == [a] + Extend(q, c, sep)
  {
    if c != sep {
      assert ([a] + q)[..|q|] == [a] + q[..|q| - 1];
    }
  }

  /** `parts.join(sep)`: the inverse of `Split`. */
  function Join(parts: seq<string>, sep: char): string
    requires |parts| >= 1
    decreases |parts|
  {
    if |parts| == 1 then parts[0] else Join(parts[..|parts| - 1], sep) + [sep] + parts[|parts| - 1]
  }

  /** Joining extended pieces appends the character read. */
  lemma JoinExtend(p: seq<string>, c: char, sep: char)
    requires |p| >= 1
    ensures Join(Extend(p, c, sep), sep) == Join(p, sep) + [c]
  {
    var q := Extend(p, c, sep);
    if c == sep {
      assert q[..|q| - 1] == p;
    } else if |p| > 1 {
      assert q[..|q| - 1] == p[..|p| - 1];
    }
  }

  /** Splitting and joining again gives back the original string. */
  lemma {:induction false} JoinSplit(s: string, sep: char)
    ensures Join(Split(s, sep), sep) == s
    decreases |s|
  {
    if s != [] {
      var init, c := s[..|s| - 1], s[|s| - 1];
      assert s == init + [c];
      JoinSplit(init, sep);
      SplitSnoc(init, c, sep);
      JoinExtend(Split(init, sep), c, sep);
    }
  }

  /** No piece of a split contains the separator. */
  lemma {:induction false} SplitPiecesAreFree(s: string, sep: char)
    ensures forall i :: 0 <= i < |Split(s, sep)| ==> sep !in Split(s, sep)[i]
    decreases |s|
  {
    if s != [] {
      SplitPiecesAreFree(s[..|s| - 1], sep);
    }
  }

  /** `split` yields a single piece exactly when the separator does not occur. */
  lemma {:induction false} SplitIsSingleIffNoSeparator(s: string, sep: char)
    ensures |Split(s, sep)| == 1 <==> sep !in s
    ensures sep !in s ==> Split(s, sep) == [s]
    decreases |s|
  {
    if s != [] {
      var init := s[..|s| - 1];
      SplitIsSingleIffNoSeparator(init, sep);
      assert s == init + [s[|s| - 1]];
      SplitGrows(init, sep);
    }
  }

  /** Adding characters never removes a piece. */
  lemma {:induction false} SplitGrows(s: string, sep: char)
    ensures sep in s ==> |Split(s, sep)| > 1
    decreases |s|
  {
    if s != [] {
      var init := s[..|s| - 1];
      SplitGrows(init, sep);
      assert s == init + [s[|s| - 1]];
    }
  }

  /** What reading one character does to the first piece. */
  lemma ExtendFirst(p: seq<string>, c: char, sep: char)
    requires |p| >= 1
    ensures |p| > 1 ==> |Extend(p, c, sep)| > 1 && Extend(p, c, sep)[0] == p[0]
    ensures |p| == 1 && c == sep ==> Extend(p, c, sep) == [p[0], []]
    ensures |p| == 1 && c != sep ==> Extend(p, c, sep) == [p[0] + [c]]
  {
  }

  /**
   * The first piece is a prefix of the string: the whole string when it is the
   * only piece, and otherwise followed by a separator.
   */
  lemma {:induction false} FirstPieceIsPrefix(s: string, sep: char)
    ensures Split(s, sep)[0] <= s
    ensures |Split(s, sep)| == 1 ==> Split(s, sep)[0] == s
    ensures |Split(s, sep)| > 1 ==> |Split(s, sep)[0]| < |s| && s[|Split(s, sep)[0]|] == sep
    decreases |s|
  {
    if s != [] {
      var init, c := s[..|s| - 1], s[|s| - 1];
      assert s == init + [c];
      FirstPieceIsPrefix(init, sep);
      SplitSnoc(init, c, sep);
      ExtendFirst(Split(init, sep), c, sep);
    }
  }

  /**
   * `s.split(sep).pop()`: the separator-free suffix of `s` that is either all of
   * `s` or starts right after its last separator.
   */
  function LastPiece(s: string, sep: char): (r: string)
    ensures sep !in r
    ensures |r| <= |s| && r == s[|s| - |r|..]
    ensures r == s || (|r| < |s| && s[|s| - |r| - 1] == sep)
  {
    var parts := Split(s, sep);
    SplitPiecesAreFree(s, sep);
    LastPieceIsSuffix(s, sep);
    parts[|parts| - 1]
  }

  /** What reading one character does to the last piece. */
  lemma ExtendLast(p: seq<string>, c: char, sep: char)
    requires |p| >= 1
    ensures var q := Extend(p, c, sep);
      q[|q| - 1] == if c == sep then [] else p[|p| - 1] + [c]
  {
  }

  /** The last piece of a split is a suffix of the split string, all of it or preceded by a separator. */
  lemma {:induction false} LastPieceIsSuffix(s: string, sep: char)
    ensures var parts := Split(s, sep); var r := parts[|parts| - 1];
      |r| <= |s| && r == s[|s| - |r|..] && (r == s || (|r| < |s| && s[|s| - |r| - 1] == sep))
    decreases |s|
  {
    if s != [] {
      var init, c := s[..|s| - 1], s[|s| - 1];
      assert s == init + [c];
      LastPieceIsSuffix(init, sep);
      SplitSnoc(init, c, sep);
      var p := Split(init, sep);
      ExtendLast(p, c, sep);
      var r := p[|p| - 1];
      if c != sep {
        assert init[|init| - |r|..] + [c] == s[|s| - |r| - 1..];
        if r != init {
          assert s[|s| - |r| - 2] == init[|init| - |r| - 1];
        }
      }
    }
  }

  /**
   * `s.split(sep)[1]`: the second piece, `undefined` when `sep` does not occur;
   * otherwise the separator-free text from just after the first separator up to
   * the next separator or the end.
   */
  function SecondPiece(s: string, sep: char): (r: Option<string>)
    ensures r.None? <==> sep !in s
    ensures r.Some? ==> sep !in r.value
    ensures r.Some? ==>
      exists i :: 0 <= i < |s| && s[i] == sep && sep !in s[..i] && r.value <= s[i + 1..]
        && (i + 1 + |r.value| == |s| || s[i + 1 + |r.value|] == sep)
  {
    var parts := Split(s, sep);
    SplitIsSingleIffNoSeparator(s, sep);
    if |parts| > 1 then
      SplitPiecesAreFree(s, sep);
      var i := IndexOf(s, sep);
      SplitAfterPiece(s[..i], sep, s[i + 1..]);
      assert s == s[..i] + [sep] + s[i + 1..];
      FirstPieceIsPrefix(s[i + 1..], sep);
      Some(parts[1])
    else None
  }

  /** A string that starts with a separator-free piece and a separator splits into that piece and the rest's pieces. */
  lemma {:induction false} SplitAfterPiece(a: string, sep: char, b: string)
    requires sep !in a
    ensures Split(a + [sep] + b, sep) == [a] + Split(b, sep)
    decreases |b|
  {
    if b == [] {
      SplitIsSingleIffNoSeparator(a, sep);
      SplitSnoc(a, sep, sep);
      assert a + [sep] + b == a + [sep];
    } else {
      var b', c := b[..|b| - 1], b[|b| - 1];
      SplitAfterPiece(a, sep, b');
      assert a + [sep] + b == (a + [sep] + b') + [c];
      assert b == b' + [c];
      SplitSnoc(a + [sep] + b', c, sep);
      SplitSnoc(b', c, sep);
      ExtendCons(a, Split(b', sep), c, sep);
    }
  }
}

=== FILE: key_dispatch.dfy ===
/**
 * The keyboard classifier of the logged-in shell (`_onKeyDown`): a switch over
 * the key with modifier guards, a fallback to the platform's own handler, and a
 * redirect of unhandled typing keys to the message composer.
 */
module KeyDispatch {
  import opened Wrappers
  import opened Actions
  import opened Dom

  /** The `Key` values the classifier distinguishes; `OtherKey` is every other key value. */
  datatype Key =
    | PageUp | PageDown | Home | End | K | Backtick | Slash | ArrowUp | ArrowDown | Period
    | Alt | Control | Meta | Shift | Space | Enter | Tab | ContextMenu | OtherKey

  /** The `page_type` prop, as far as the classifier looks at it. */
  datatype PageType = RoomViewPage | GroupViewPage | OtherPage

  /**
   * A keydown event. `onlyCtrlOrCmd` and `onlyCtrlOrCmdIgnoreShift` are the answers of
   * `isOnlyCtrlOrCmdKeyEvent` and `isOnlyCtrlOrCmdIgnoreShiftKeyEvent` for this event
   * (both live outside the shell and are taken as given); `targetIsBody` says whether
   * `ev.target === document.body`, and `target` is the target element.
   */
  datatype KeyEvent = KeyEvent(
    key: Key,
    altKey: bool, ctrlKey: bool, metaKey: bool, shiftKey: bool,
    onlyCtrlOrCmd: bool, onlyCtrlOrCmdIgnoreShift: bool,
    targetIsBody: bool, target: Element)

  /**
   * What handling one event did: whether it counted as handled, the actions it
   * dispatched, whether it forwarded the key to the room view's scroll handler,
   * whether it toggled the keyboard-shortcuts dialog, whether it asked the
   * platform, and which of `stopPropagation` / `preventDefault` it called.
   */
  datatype KeyOutcome = KeyOutcome(
    handled: bool,
    dispatched: seq<Dispatch>,
    scrollForwarded: bool,
    shortcutsDialogToggled: bool,
    platformConsulted: bool,
    propagationStopped: bool,
    defaultPrevented: bool)

  /** The outcome of an event nobody looked at. */
  const Untouched := KeyOutcome(false, [], false, false, false, false, false)

  predicate IsModifierKey(k: Key) {
    k == Alt || k == Control || k == Meta || k == Shift
  }

  predicate HasModifier(ev: KeyEvent) {
    ev.altKey || ev.ctrlKey || ev.metaKey || ev.shiftKey
  }

  /** The keys that have a `case` arm of their own in the switch. */
  predicate HasCaseArm(k: Key) {
    k in {PageUp, PageDown, Home, End, K, Backtick, Slash, ArrowUp, ArrowDown, Period}
  }

  /** What a case arm does when its guard holds. */
  datatype Shortcut = ScrollRoomView | Publish(action: Action) | ToggleShortcutsDialog

  /** The shortcut a key with a case arm triggers, `None` when the arm's guard fails. */
  function ArmShortcut(ev: KeyEvent, page: PageType): Option<Shortcut>
    requires HasCaseArm(ev.key)
  {
    match ev.key
    case PageUp | PageDown =>
      if !HasModifier(ev) && !IsModifierKey(ev.key) then Some(ScrollRoomView) else None
    case Home | End =>
      if ev.ctrlKey && !ev.shiftKey && !ev.altKey && !ev.metaKey then Some(ScrollRoomView) else None
    case K =>
      if ev.onlyCtrlOrCmd then Some(Publish(FocusRoomFilter)) else None
    case Backtick =>
      if ev.onlyCtrlOrCmd then Some(Publish(ToggleTopLeftMenu)) else None
    case Slash =>
      if ev.onlyCtrlOrCmdIgnoreShift then Some(ToggleShortcutsDialog) else None
    case ArrowUp | ArrowDown =>
      if ev.altKey && !ev.ctrlKey && !ev.metaKey
      then Some(Publish(ViewRoomDelta(if ev.key == ArrowUp then -1 else 1, ev.shiftKey)))
      else None
    case Period =>
      if ev.onlyCtrlOrCmd && page != OtherPage
      then Some(Publish(ToggleRightPanel(if page == RoomViewPage then RoomPanel else GroupPanel)))
      else None
  }

  /**
   * The conditions under which an unhandled key moves focus to the composer: not a
   * modifier key, no Alt/Ctrl/Meta held (Shift allowed), not the context-menu key,
   * not Space/Enter on a focused element, not Tab, and a target that cannot itself
   * take input.
   */
  predicate RedirectsToComposer(ev: KeyEvent) {
    && !IsModifierKey(ev.key) && !ev.altKey && !ev.ctrlKey && !ev.metaKey
    && ev.key != ContextMenu
    && !(!ev.targetIsBody && (ev.key == Space || ev.key == Enter))
    && ev.key != Tab
    && !CanReceiveInput(ev.target)
  }

  /**
   * The whole classification of one event, given the page type and what the
   * platform's `onKeyDown` would answer if asked.
   */
  function KeyDownSpec(ev: KeyEvent, page: PageType, platformHandles: bool): KeyOutcome {
    var arm := HasCaseArm(ev.key);
    var shortcut := if arm then ArmShortcut(ev, page) else None;
    var handled := if arm then shortcut.Some? else platformHandles;
    if handled then
      KeyOutcome(true,
        if shortcut.Some? && shortcut.value.Publish? then [Dispatch(shortcut.value.action, false)] else [],
        shortcut == Some(ScrollRoomView),
        shortcut == Some(ToggleShortcutsDialog),
        !arm, true, true)
    else if RedirectsToComposer(ev) then
      KeyOutcome(false, [Dispatch(FocusComposer, true)], false, false, !arm, true, false)
    else
      KeyOutcome(false, [], false, false, !arm, false, false)
  }

  /**
   * The `switch` of `_onKeyDown`: the arm for the key runs its guard and its
   * effect, and sets `handled`; a key without an arm asks the platform.
   */
  method SwitchOnKey(ev: KeyEvent, page: PageType, platformHandles: bool)
    returns (handled: bool, dispatched: seq<Dispatch>, scrolled: bool, dialog: bool, consulted: bool)
    ensures consulted <==> !HasCaseArm(ev.key)
    ensures !HasCaseArm(ev.key) ==> handled == platformHandles && dispatched == [] && !scrolled && !dialog
    ensures HasCaseArm(ev.key) ==>
      var shortcut := ArmShortcut(ev, page);
      && (handled <==> shortcut.Some?)
      && (scrolled <==> shortcut == Some(ScrollRoomView))
      && (dialog <==> shortcut == Some(ToggleShortcutsDialog))
      && dispatched == if shortcut.Some? && shortcut.value.Publish? then [Dispatch(shortcut.value.action, false)] else []
  {
    handled, dispatched, scrolled, dialog, consulted := false, [], false, false, false;
    var hasModifier := ev.altKey || ev.ctrlKey || ev.metaKey || ev.shiftKey;
    var isModifier := ev.key == Alt || ev.key == Control || ev.key == Meta || ev.key == Shift;

    match ev.key {
      case PageUp | PageDown =>
        if !hasModifier && !isModifier {
          scrolled := true;
          handled := true;
        }
      case Home | End =>
        if ev.ctrlKey && !ev.shiftKey && !ev.altKey && !ev.metaKey {
          scrolled := true;
          handled := true;
        }
      case K =>
        if ev.onlyCtrlOrCmd {
          dispatched := [Dispatch(FocusRoomFilter, false)];
          handled := true;
        }
      case Backtick =>
        if ev.onlyCtrlOrCmd {
          dispatched := [Dispatch(ToggleTopLeftMenu, false)];
          handled := true;
        }
      case Slash =>
        if ev.onlyCtrlOrCmdIgnoreShift {
          dialog := true;
          handled := true;
        }
      case ArrowUp | ArrowDown =>
        if ev.altKey && !ev.ctrlKey && !ev.metaKey {
          var delta := if ev.key == ArrowUp then -1 else 1;
          dispatched := [Dispatch(ViewRoomDelta(delta, ev.shiftKey), false)];
          handled := true;
        }
      case Period =>
        if ev.onlyCtrlOrCmd && (page == RoomViewPage || page == GroupViewPage) {
          var panel := if page == RoomViewPage then RoomPanel else GroupPanel;
          dispatched := [Dispatch(ToggleRightPanel(panel), false)];
          handled := true;
        }
      case _ =>
        consulted := true;
        handled := platformHandles;
    }
  }

  /**
   * `_onKeyDown`: the switch sets `handled` and performs the arm's effect; then a
   * handled event is stopped and its default prevented, and an unhandled typing key
   * is redirected to the composer.
   */
  method OnKeyDown(ev: KeyEvent, page: PageType, platformHandles: bool) returns (o: KeyOutcome)
    ensures o == KeyDownSpec(ev, page, platformHandles)
    ensures o.handled <==> o.defaultPrevented
    ensures o.handled ==> o.propagationStopped
    ensures |o.dispatched| <= 1
  {
    var handled, dispatched, scrolled, dialog, consulted := SwitchOnKey(ev, page, platformHandles);
    var isModifier := ev.key == Alt || ev.key == Control || ev.key == Meta || ev.key == Shift;
    var stopped, prevented := false, false;
    if handled {
      stopped, prevented := true, true;
    } else if !isModifier && !ev.altKey && !ev.ctrlKey && !ev.metaKey {
      var isClickShortcut := !ev.targetIsBody && (ev.key == Space || ev.key == Enter);
      if ev.key != ContextMenu {
        if !isClickShortcut && ev.key != Tab && !CanReceiveInput(ev.target) {
          dispatched := dispatched + [Dispatch(FocusComposer, true)];
          stopped := true;
        }
      }
    }
    o := KeyOutcome(handled, dispatched, scrolled, dialog, consulted, stopped, prevented);
  }

  // ---- properties of the classification ----

  /** A handled event always gets both `stopPropagation` and `preventDefault`. */
  lemma HandledIsStoppedAndPrevented(ev: KeyEvent, page: PageType, platformHandles: bool)
    ensures var o := KeyDownSpec(ev, page, platformHandles);
      o.handled ==> o.propagationStopped && o.defaultPrevented
  {
  }

  /** Ctrl/Cmd-only + K dispatches exactly `focus_room_filter` and is handled; K otherwise dispatches it never. */
  lemma CtrlKFocusesRoomFilter(ev: KeyEvent, page: PageType, platformHandles: bool)
    requires ev.key == K
    ensures var o := KeyDownSpec(ev, page, platformHandles);
      ev.onlyCtrlOrCmd ==> o.handled && o.dispatched == [Dispatch(FocusRoomFilter, false)]
    ensures var o := KeyDownSpec(ev, page, platformHandles);
      !ev.onlyCtrlOrCmd ==> !o.handled && Dispatch(FocusRoomFilter, false) !in o.dispatched
  {
  }

  /**
   * Alt + ArrowUp/ArrowDown without Ctrl and Meta moves to the adjacent room: delta
   * -1 for up and +1 for down, unread-only exactly when Shift is held.
   */
  lemma AltArrowMovesRoom(ev: KeyEvent, page: PageType, platformHandles: bool)
    requires ev.key == ArrowUp || ev.key == ArrowDown
    requires ev.altKey && !ev.ctrlKey && !ev.metaKey
    ensures var o := KeyDownSpec(ev, page, platformHandles);
      o.handled && !o.platformConsulted
      && o.dispatched == [Dispatch(ViewRoomDelta(if ev.key == ArrowUp then -1 else 1, ev.shiftKey), false)]
  {
  }

  /**
   * The platform is asked exactly for keys without a case arm; a key with an arm
   * whose guard fails is unhandled and never reaches the platform.
   */
  lemma PlatformOnlyForUnlistedKeys(ev: KeyEvent, page: PageType, platformHandles: bool)
    ensures var o := KeyDownSpec(ev, page, platformHandles);
      o.platformConsulted <==> !HasCaseArm(ev.key)
    ensures var o := KeyDownSpec(ev, page, platformHandles);
      !HasCaseArm(ev.key) ==> o.handled == platformHandles
    ensures var o := KeyDownSpec(ev, page, platformHandles);
      HasCaseArm(ev.key) ==> (o.handled <==> ArmShortcut(ev, page).Some?)
  {
  }

  /**
   * Focus moves to the composer exactly when the event is unhandled and every
   * redirect condition holds; it is dispatched synchronously, propagation is
   * stopped and the default action is left alone so that the character is typed.
   */
  lemma ComposerRedirect(ev: KeyEvent, page: PageType, platformHandles: bool)
    ensures var o := KeyDownSpec(ev, page, platformHandles);
      Dispatch(FocusComposer, true) in o.dispatched <==> !o.handled && RedirectsToComposer(ev)
    ensures var o := KeyDownSpec(ev, page, platformHandles);
      !o.handled && RedirectsToComposer(ev) ==>
        o.dispatched == [Dispatch(FocusComposer, true)] && o.propagationStopped && !o.defaultPrevented
    ensures var o := KeyDownSpec(ev, page, platformHandles);
      !o.handled && !RedirectsToComposer(ev) ==>
        o.dispatched == [] && !o.propagationStopped && !o.defaultPrevented
  {
  }

  /**
   * The context-menu key is never redirected; it is intercepted only when the
   * platform claims it.
   */
  lemma ContextMenuNotCaptured(ev: KeyEvent, page: PageType, platformHandles: bool)
    requires ev.key == ContextMenu
    ensures var o := KeyDownSpec(ev, page, platformHandles);
      o.dispatched == [] && (o.propagationStopped <==> platformHandles)
      && (o.defaultPrevented <==> platformHandles)
  {
  }

  /** A plain typing key on a non-input element with no modifiers and no platform claim goes to the composer. */
  lemma PlainKeyGoesToComposer(ev: KeyEvent, page: PageType)
    requires ev.key == OtherKey && !HasModifier(ev) && !CanReceiveInput(ev.target)
    ensures KeyDownSpec(ev, page, false)
      == KeyOutcome(false, [Dispatch(FocusComposer, true)], false, false, true, true, false)
  {
  }
}

=== FILE: lhs_size.dfy ===
/**
 * Persistence of the left panel's width under the storage key "mx_lhs_size":
 * what the collapse and resize callbacks write and what `_loadResizerPreferences`
 * reads back.
 */
module LhsSize {
  import opened Wrappers
  import opened JsNumber

  const LhsSizeKey := "mx_lhs_size"

  /** The width applied when nothing numeric is stored. */
  const DefaultLhsSize: int := 350

  /** `localStorage.getItem(key)` as `parseInt` sees it: a missing entry is `null`, read as the string "null". */
  function StoredText(storage: map<string, string>): string {
    if LhsSizeKey in storage then storage[LhsSizeKey] else "null"
  }

  /** The width `_loadResizerPreferences` applies: the parsed stored value, or 350 when that is NaN. */
  function LoadedLhsSize(storage: map<string, string>): int {
    match ParseInt(StoredText(storage))
    case None => DefaultLhsSize
    case Some(n) => n
  }

  /** A missing entry loads as 350. */
  lemma MissingLoadsDefault(storage: map<string, string>)
    requires LhsSizeKey !in storage
    ensures LoadedLhsSize(storage) == DefaultLhsSize
  {
    assert !IsJsWhitespace('n') && !IsDigit('n');
    assert TrimStart("null") == "null";
  }

  /** An entry without a leading number loads as 350. */
  lemma NonNumericLoadsDefault(storage: map<string, string>)
    requires LhsSizeKey in storage && ParseInt(storage[LhsSizeKey]).None?
    ensures LoadedLhsSize(storage) == DefaultLhsSize
  {
  }

  /** Whatever width `onResized(n)` stores is the width the next load applies. */
  lemma ResizedSizeReloads(storage: map<string, string>, n: int)
    ensures LoadedLhsSize(storage[LhsSizeKey := IntToDecimal(n)]) == n
  {
    ParseIntOfDecimal(n);
  }

  /** After a collapse stored "0", the next load applies width 0. */
  lemma CollapsedReloadsZero(storage: map<string, string>)
    ensures LoadedLhsSize(storage[LhsSizeKey := "0"]) == 0
  {
    assert IntToDecimal(0) == "0";
    ParseIntOfDecimal(0);
  }

  /** Text after the digits is ignored: "500px" loads as 500. */
  lemma TrailingTextIgnored(storage: map<string, string>, n: nat, suffix: string)
    requires suffix == [] || !IsDigit(suffix[0])
    ensures LoadedLhsSize(storage[LhsSizeKey := NatToDecimal(n) + suffix]) == n
  {
    ParseIntOfDigitsText(NatToDecimal(n), suffix);
    DigitsValueOfDecimal(n);
  }
}

=== FILE: logged_in_view.dfy ===
/**
 * The logged-in shell as an object: its state fields, the props it was last
 * rendered with, and the environment its handlers act on (the action bus, the
 * key-value store standing in for `localStorage`, the resize notifier and the
 * resizer's first handle), each recorded as a log or a value the methods update.
 */
module Shell {
  import opened Wrappers
  import opened Actions
  import opened Matrix
  import opened Dom
  import KeyDispatch
  import TopBar
  import ServerNotices
  import DragDrop
  import ClickDetection
  import LhsSize
  import JsNumber

  /** The props the shell's handlers and banner choice read. */
  datatype Props = Props(
    pageType: KeyDispatch.PageType,
    showCookieBar: bool,
    hasNewVersion: bool,
    checkingForUpdate: bool,
    showNotifierToolbar: bool,
    piwik: Option<TopBar.PiwikConfig>,
    leftDisabled: bool,
    rightDisabled: bool)

  /** An account-data event: its type and, for the web settings event, its `useCompactLayout` content. */
  datatype AccountDataEvent = AccountDataEvent(eventType: string, useCompactLayout: bool)

  /** Calls made on the resize notifier. */
  datatype Notification = BannersChanged | LeftHandleResized

  class LoggedInView {
    var props: Props

    // component state
    var syncErrorData: Nullish<SyncData>
    var serverNoticeEvents: seq<MatrixEvent>
    var mouseDown: Option<ClickDetection.Point>
    var userHasGeneratedPassword: bool
    var useCompactLayout: bool

    // environment
    /** Every `dis.dispatch` call so far, in order. */
    var bus: seq<Dispatch>
    /** The string key-value store behind `window.localStorage`. */
    var storage: map<string, string>
    /** Every call on the resize notifier so far, in order. */
    var notifications: seq<Notification>
    /** Every `forHandleAt(0).resize(size)` call so far, in order. */
    var resizeRequests: seq<int>

    /**
     * The constructor: the initial state. Its calls to `_setStateFromSessionStore`
     * and `_updateServerNoticeEvents` write with `setState` before the component is
     * mounted, which React ignores; the flag and the notices are set by later calls
     * of `SetStateFromSessionStore` (the session-store listener) and
     * `UpdateServerNoticeEvents` (the refresh resuming after its first fetch).
     * `compactSetting` is the `useCompactLayout` setting.
     */
    constructor (props: Props, compactSetting: bool, storage: map<string, string>)
      ensures this.props == props && this.storage == storage
      ensures syncErrorData == Undefined && mouseDown.None? && useCompactLayout == compactSetting
      ensures !userHasGeneratedPassword && serverNoticeEvents == []
      ensures bus == [] && notifications == [] && resizeRequests == []
    {
      this.props := props;
      syncErrorData := Undefined;
      mouseDown := None;
      userHasGeneratedPassword := false;
      useCompactLayout := compactSetting;
      serverNoticeEvents := [];
      bus := [];
      this.storage := storage;
      notifications := [];
      resizeRequests := [];
    }

    /** A re-render with new props from the parent. */
    method ReceiveProps(props: Props)
      modifies this`props
      ensures this.props == props
    {
      this.props := props;
    }

    /** `_setStateFromSessionStore`: a generated password is pending when a non-empty one is cached. */
    method SetStateFromSessionStore(cachedPassword: Option<string>)
      modifies this`userHasGeneratedPassword
      ensures userHasGeneratedPassword <==> cachedPassword.Some? && cachedPassword.value != ""
    {
      userHasGeneratedPassword := cachedPassword.Some? && cachedPassword.value != "";
    }

    // ---- resizer callbacks and preferences ----

    /** `onCollapsed`: collapsing hides the panel and stores "0"; expanding shows it and leaves the store alone. */
    method OnCollapsed(collapsed: bool)
      modifies this`bus, this`storage
      ensures collapsed ==>
        bus == old(bus) + [Dispatch(HideLeftPanel, true)] && storage == old(storage)[LhsSize.LhsSizeKey := "0"]
      ensures !collapsed ==> bus == old(bus) + [Dispatch(ShowLeftPanel, true)] && storage == old(storage)
    {
      if collapsed {
        bus := bus + [Dispatch(HideLeftPanel, true)];
        storage := storage[LhsSize.LhsSizeKey := "0"];
      } else {
        bus := bus + [Dispatch(ShowLeftPanel, true)];
      }
    }

    /** `onResized`: store `'' + size` and tell the resize notifier. */
    method OnResized(size: int)
      modifies this`storage, this`notifications
      ensures storage == old(storage)[LhsSize.LhsSizeKey := JsNumber.IntToDecimal(size)]
      ensures notifications == old(notifications) + [LeftHandleResized]
      ensures LhsSize.LoadedLhsSize(storage) == size
    {
      storage := storage[LhsSize.LhsSizeKey := JsNumber.IntToDecimal(size)];
      notifications := notifications + [LeftHandleResized];
      LhsSize.ResizedSizeReloads(old(storage), size);
    }

    /** `_loadResizerPreferences`: apply the stored width, or 350, to the first handle. */
    method LoadResizerPreferences()
      modifies this`resizeRequests
      ensures resizeRequests == old(resizeRequests) + [LhsSize.LoadedLhsSize(storage)]
    {
      resizeRequests := resizeRequests + [LhsSize.LoadedLhsSize(storage)];
    }

    // ---- client notifications ----

    /** `onAccountData`: the web settings event sets the compact layout; the ignored-users event is announced. */
    method OnAccountData(event: AccountDataEvent)
      modifies this`useCompactLayout, this`bus
      ensures useCompactLayout == if event.eventType == "im.vector.web.settings" then event.useCompactLayout
                                  else old(useCompactLayout)
      ensures bus == old(bus) + (if event.eventType == "m.ignored_user_list" then [Dispatch(IgnoreStateChanged, false)] else [])
    {
      if event.eventType == "im.vector.web.settings" {
        useCompactLayout := event.useCompactLayout;
      }
      if event.eventType == "m.ignored_user_list" {
        bus := bus + [Dispatch(IgnoreStateChanged, false)];
      }
    }

    /** `_updateServerNoticeEvents`, with the fetches answered by `roomLists`' rooms. */
    method UpdateServerNoticeEvents(roomLists: map<string, seq<ServerNotices.Room>>)
      modifies this`serverNoticeEvents
      ensures serverNoticeEvents ==
        if ServerNotices.NoticeRefresh(roomLists).Some? then ServerNotices.NoticeRefresh(roomLists).value
        else old(serverNoticeEvents)
    {
      var pinnedEvents := ServerNotices.UpdateServerNoticeEvents(roomLists);
      if pinnedEvents.Some? {
        serverNoticeEvents := pinnedEvents.value;
      }
    }

    /**
     * `onSync`: nothing happens when neither the sync state nor the error code
     * changed (both compared with `===`); otherwise the error payload is kept
     * exactly in the ERROR state and cleared to `null` otherwise, and the notices
     * are refreshed on PREPARED -> SYNCING. The previous state is `None` (`null`)
     * on the first sync.
     */
    method OnSync(syncState: SyncState, oldSyncState: Option<SyncState>, data: Nullish<SyncData>,
                  roomLists: map<string, seq<ServerNotices.Room>>)
      modifies this`syncErrorData, this`serverNoticeEvents
      ensures oldSyncState == Some(syncState) && ErrCodeOf(old(syncErrorData)) == ErrCodeOf(data) ==>
        syncErrorData == old(syncErrorData) && serverNoticeEvents == old(serverNoticeEvents)
      ensures !(oldSyncState == Some(syncState) && ErrCodeOf(old(syncErrorData)) == ErrCodeOf(data)) ==>
        syncErrorData == (if syncState == Error then data else Null)
        && serverNoticeEvents ==
          if oldSyncState == Some(Prepared) && syncState == Syncing && ServerNotices.NoticeRefresh(roomLists).Some?
          then ServerNotices.NoticeRefresh(roomLists).value
          else old(serverNoticeEvents)
    {
      var oldErrCode := ErrCodeOf(syncErrorData);
      var newErrCode := ErrCodeOf(data);
      if oldSyncState == Some(syncState) && oldErrCode == newErrCode {
        return;
      }
      if syncState == Error {
        syncErrorData := data;
      } else {
        syncErrorData := Null;
      }
      if oldSyncState == Some(Prepared) && syncState == Syncing {
        UpdateServerNoticeEvents(roomLists);
      }
    }

    /** `onRoomStateEvents`: a state event in a server-notice room refreshes the notices. */
    method OnRoomStateEvents(roomId: string, roomLists: map<string, seq<ServerNotices.Room>>)
      modifies this`serverNoticeEvents
      ensures var inNoticeRoom := ServerNotices.ServerNoticeList in roomLists
        && exists i :: 0 <= i < |roomLists[ServerNotices.ServerNoticeList]|
                       && roomLists[ServerNotices.ServerNoticeList][i].roomId == roomId;
        serverNoticeEvents ==
          if inNoticeRoom && ServerNotices.NoticeRefresh(roomLists).Some?
          then ServerNotices.NoticeRefresh(roomLists).value
          else old(serverNoticeEvents)
    {
      if ServerNotices.ServerNoticeList in roomLists {
        var rooms := roomLists[ServerNotices.ServerNoticeList];
        var i := 0;
        var found := false;
        while i < |rooms| && !found
          invariant 0 <= i <= |rooms|
          invariant found <==> exists k :: 0 <= k < i && rooms[k].roomId == roomId
        {
          found := rooms[i].roomId == roomId;
          i := i + 1;
        }
        if found {
          UpdateServerNoticeEvents(roomLists);
        }
      }
    }

    // ---- DOM events ----

    /** `_onPaste`: unless the target or an ancestor takes input, focus the composer synchronously. */
    method OnPaste(target: Element)
      modifies this`bus
      ensures bus == old(bus) + (if InputInAncestry(target) then [] else [Dispatch(FocusComposer, true)])
    {
      var canReceiveInput := AnyAncestorReceivesInput(target);
      if !canReceiveInput {
        bus := bus + [Dispatch(FocusComposer, true)];
      }
    }

    /** `_onReactKeyDown`: every key event bubbling up to the shell is classified. */
    method OnReactKeyDown(ev: KeyDispatch.KeyEvent, platformHandles: bool) returns (o: KeyDispatch.KeyOutcome)
      modifies this`bus
      ensures o == KeyDispatch.KeyDownSpec(ev, props.pageType, platformHandles)
      ensures bus == old(bus) + o.dispatched
    {
      o := KeyDispatch.OnKeyDown(ev, props.pageType, platformHandles);
      bus := bus + o.dispatched;
    }

    /** `_onNativeKeyDown`: document-level key events are classified only when the body is the target. */
    method OnNativeKeyDown(ev: KeyDispatch.KeyEvent, platformHandles: bool) returns (o: KeyDispatch.KeyOutcome)
      modifies this`bus
      ensures o == if ev.targetIsBody then KeyDispatch.KeyDownSpec(ev, props.pageType, platformHandles)
                   else KeyDispatch.Untouched
      ensures bus == old(bus) + o.dispatched
    {
      if ev.targetIsBody {
        o := KeyDispatch.OnKeyDown(ev, props.pageType, platformHandles);
      } else {
        o := KeyDispatch.Untouched;
      }
      bus := bus + o.dispatched;
    }

    /** `_onDragEnd`. */
    method OnDragEnd(result: DragDrop.DropResult)
      modifies this`bus
      ensures bus == old(bus) + DragDrop.DragEnd(result)
    {
      bus := bus + DragDrop.DragEnd(result);
    }

    /** `_onMouseDown`: with both side panels disabled, a press on the background is remembered. */
    method OnMouseDown(className: string, pageX: int, pageY: int)
      modifies this`mouseDown
      ensures mouseDown == if props.leftDisabled && props.rightDisabled && ClickDetection.IsBackground(className)
                           then Some(ClickDetection.Point(pageX, pageY)) else old(mouseDown)
    {
      if props.leftDisabled && props.rightDisabled {
        if ClickDetection.IsBackground(className) {
          mouseDown := Some(ClickDetection.Point(pageX, pageY));
        }
      }
    }

    /**
     * `_onMouseUp`: after a remembered press, close the settings page if the
     * release passes the distance test as the code writes it (`dy` doubled, not
     * squared; see ClickDetection), and forget the press.
     */
    method OnMouseUp(pageX: int, pageY: int)
      modifies this`mouseDown, this`bus
      ensures old(mouseDown).None? ==> mouseDown == old(mouseDown) && bus == old(bus)
      ensures old(mouseDown).Some? ==>
        var dx, dy := pageX - old(mouseDown).value.x, pageY - old(mouseDown).value.y;
        mouseDown.None?
        && bus == old(bus) + (if 0 <= dx * dx + 2 * dy < 25 then [Dispatch(CloseSettings, false)] else [])
    {
      if mouseDown.None? {
        return;
      }
      var deltaX := pageX - mouseDown.value.x;
      var deltaY := pageY - mouseDown.value.y;
      if ClickDetection.IsClickAsWritten(deltaX, deltaY) {
        bus := bus + [Dispatch(CloseSettings, false)];
      }
      mouseDown := None;
    }

    // ---- rendering ----

    /** What the banner choice reads, given the browser's do-not-track setting. */
    function BannerInputs(doNotTrack: Option<string>): TopBar.BannerInputs
      reads this
    {
      BannerInputsFrom(props, userHasGeneratedPassword, doNotTrack)
    }

    /** The banner-choice inputs built from given props and generated-password flag, the rest from the current state. */
    function BannerInputsFrom(p: Props, password: bool, doNotTrack: Option<string>): TopBar.BannerInputs
      reads this
    {
      TopBar.BannerInputs(syncErrorData, serverNoticeEvents, p.showCookieBar, p.piwik, doNotTrack,
                          p.hasNewVersion, p.checkingForUpdate, password, p.showNotifierToolbar)
    }

    /** The banner area and body classes of `render`. */
    function Chrome(doNotTrack: Option<string>): TopBar.Chrome
      reads this
    {
      TopBar.RenderChrome(BannerInputs(doNotTrack), useCompactLayout)
    }

    /** `componentDidUpdate`: tell the resize notifier when a watched banner input changed. */
    method ComponentDidUpdate(prevProps: Props, prevUserHasGeneratedPassword: bool)
      modifies this`notifications
      ensures notifications == old(notifications)
        + (if TopBar.BannersMayHaveChanged(BannerInputsFrom(prevProps, prevUserHasGeneratedPassword, None),
                                           BannerInputs(None))
           then [BannersChanged] else [])
    {
      if TopBar.BannersMayHaveChanged(BannerInputsFrom(prevProps, prevUserHasGeneratedPassword, None), BannerInputs(None)) {
        notifications := notifications + [BannersChanged];
      }
    }
  }
}

=== FILE: matrix.dfy ===
/** The protocol values the shell reads: events and the sync error payload. */
module Matrix {
  import opened Wrappers

  /**
   * A timeline event, reduced to its id, its type and the content fields the
   * shell reads (`server_notice_type`, `admin_contact`, `limit_type`).
   */
  datatype MatrixEvent = MatrixEvent(
    eventId: string,
    eventType: string,
    serverNoticeType: Nullish<string>,
    adminContact: Nullish<string>,
    limitType: Nullish<string>)

  /** `error.data` of a sync error: who to contact and which limit was hit. */
  datatype LimitData = LimitData(adminContact: Nullish<string>, limitType: Nullish<string>)

  /** `data.error` of a sync notification. */
  datatype MatrixError = MatrixError(errcode: Nullish<string>, data: Nullish<LimitData>)

  /** The `data` argument of a sync notification. */
  datatype SyncData = SyncData(error: Nullish<MatrixError>)

  /**
   * The sync states the client reports; the shell compares them with `===` and
   * singles out PREPARED, SYNCING and ERROR.
   */
  datatype SyncState = Prepared | Syncing | Error | Stopped | Reconnecting | Catchup

  /**
   * `d && d.error && d.error.errcode`: JavaScript's `&&` yields the first falsy
   * operand, so a missing payload or error yields that `null` or `undefined` itself,
   * and a present error yields its `errcode` whatever it is.
   */
  function ErrCodeOf(d: Nullish<SyncData>): (r: Nullish<string>)
    ensures d == Undefined || (d.Value? && d.v.error == Undefined) ==> r == Undefined
    ensures d == Null || (d.Value? && d.v.error == Null) ==> r == Null
    ensures d.Value? && d.v.error.Value? ==> r == d.v.error.v.errcode
    ensures r.Value? ==> d.Value? && d.v.error.Value? && d.v.error.v.errcode == r
  {
    match d
    case Undefined => Undefined
    case Null => Null
    case Value(data) =>
      match data.error
      case Undefined => Undefined
      case Null => Null
      case Value(err) => err.errcode
  }
}

=== FILE: server_notices.dfy ===
/**
 * The server-notice cache (`_updateServerNoticeEvents`): for each room in the
 * `m.server_notice` room list, the first pinned events of that room, fetched one
 * id at a time and published in one state write.
 */
module ServerNotices {
  import opened Wrappers
  import opened Matrix

  /** At most this many pinned events are fetched per room. */
  const MaxPinnedNoticesPerRoom: nat := 2

  /** The room-list key of the server-notice rooms. */
  const ServerNoticeList := "m.server_notice"

  /**
   * A server-notice room. `pinned` is the `pinned` list of its `m.room.pinned_events`
   * state event, `None` when that event or its list is missing. `timelines` stands
   * for `getEventTimeline`: for an event id it gives the events of the timeline
   * fetched around that id; an id with no entry is a fetch that fails.
   */
  datatype Room = Room(roomId: string, pinned: Option<seq<string>>, timelines: map<string, seq<MatrixEvent>>)

  /** `timeline.getEvents().find(ev => ev.getId() === eventId)`. */
  function FindById(events: seq<MatrixEvent>, id: string): (r: Option<MatrixEvent>)
    ensures r.Some? ==> r.value in events && r.value.eventId == id
    ensures r.None? <==> forall i :: 0 <= i < |events| ==> events[i].eventId != id
  {
    if events == [] then None
    else if events[0].eventId == id then Some(events[0])
    else FindById(events[1..], id)
  }

  /** Like `find`, `FindById` returns the first event carrying the id: no earlier event has it. */
  lemma {:induction false} FindByIdIsFirst(events: seq<MatrixEvent>, id: string)
    ensures FindById(events, id).Some? ==>
      exists i :: 0 <= i < |events| && events[i] == FindById(events, id).value
        && forall j :: 0 <= j < i ==> events[j].eventId != id
    decreases |events|
  {
    if events != [] && events[0].eventId != id && FindById(events, id).Some? {
      var rest := events[1..];
      FindByIdIsFirst(rest, id);
      var i :| 0 <= i < |rest| && rest[i] == FindById(rest, id).value
        && forall j :: 0 <= j < i ==> rest[j].eventId != id;
      assert events[i + 1] == rest[i];
      forall j | 0 <= j < i + 1
        ensures events[j].eventId != id
      {
        if j > 0 {
          assert events[j] == rest[j - 1];
        }
      }
    } else if events != [] && events[0].eventId == id {
      assert events[0] == FindById(events, id).value;
    }
  }

  /** `pinned.slice(0, MAX_PINNED_NOTICES_PER_ROOM)`, nothing for a room without pinned content. */
  function IdsToFetch(room: Room): (ids: seq<string>)
    ensures room.pinned.None? ==> ids == []
    ensures room.pinned.Some? ==> ids <= room.pinned.value
    ensures room.pinned.Some? ==>
      |ids| == if |room.pinned.value| < MaxPinnedNoticesPerRoom then |room.pinned.value| else MaxPinnedNoticesPerRoom
  {
    match room.pinned
    case None => []
    case Some(p) => if |p| <= MaxPinnedNoticesPerRoom then p else p[..MaxPinnedNoticesPerRoom]
  }

  /** The ids of a list of events. */
  function IdsOf(events: seq<MatrixEvent>): (ids: seq<string>)
    ensures |ids| == |events|
    ensures forall i :: 0 <= i < |events| ==> ids[i] == events[i].eventId
  {
    if events == [] then [] else [events[0].eventId] + IdsOf(events[1..])
  }

  /** `xs` can be obtained from `ys` by deleting elements. */
  predicate IsSubsequence(xs: seq<string>, ys: seq<string>)
    decreases |ys|
  {
    xs == [] ||
    (ys != [] &&
      ((xs[|xs| - 1] == ys[|ys| - 1] && IsSubsequence(xs[..|xs| - 1], ys[..|ys| - 1]))
       || IsSubsequence(xs, ys[..|ys| - 1])))
  }

  /**
   * The events fetched for `ids` in order: a found event is appended, an id whose
   * timeline lacks it adds nothing, and a failing fetch aborts (`None`).
   */
  function FetchPinned(room: Room, ids: seq<string>): (r: Option<seq<MatrixEvent>>)
    ensures r.Some? ==> |r.value| <= |ids| && IsSubsequence(IdsOf(r.value), ids)
    decreases |ids|
  {
    if ids == [] then Some([])
    else
      var prev := FetchPinned(room, ids[..|ids| - 1]);
      var id := ids[|ids| - 1];
      if prev.None? || id !in room.timelines then None
      else
        var found := FindById(room.timelines[id], id);
        if found.None? then prev
        else
          var r := prev.value + [found.value];
          assert IdsOf(r) == IdsOf(prev.value) + [id];
          assert IdsOf(r)[..|IdsOf(r)| - 1] == IdsOf(prev.value);
          Some(r)
  }

  /** One more id: the step `FetchPinned` takes, stated for an arbitrary prefix. */
  lemma FetchPinnedStep(room: Room, ids: seq<string>, id: string)
    ensures FetchPinned(room, ids + [id]) ==
      if FetchPinned(room, ids).None? || id !in room.timelines then None
      else match FindById(room.timelines[id], id)
        case None => FetchPinned(room, ids)
        case Some(e) => Some(FetchPinned(room, ids).value + [e])
  {
    assert (ids + [id])[..|ids|] == ids;
  }

  /** What one room contributes. */
  function RoomNotices(room: Room): Option<seq<MatrixEvent>> {
    FetchPinned(room, IdsToFetch(room))
  }

  /** The rooms' contributions concatenated in room order; `None` if any fetch fails. */
  function CollectNotices(rooms: seq<Room>): (r: Option<seq<MatrixEvent>>)
    ensures r.Some? ==> |r.value| <= MaxPinnedNoticesPerRoom * |rooms|
    decreases |rooms|
  {
    if rooms == [] then Some([])
    else
      var prev := CollectNotices(rooms[..|rooms| - 1]);
      var last := RoomNotices(rooms[|rooms| - 1]);
      if prev.None? || last.None? then None else Some(prev.value + last.value)
  }

  /**
   * The new value of `serverNoticeEvents`, or `None` when no state write happens:
   * there is no server-notice room list, or a fetch failed.
   */
  function NoticeRefresh(roomLists: map<string, seq<Room>>): Option<seq<MatrixEvent>> {
    if ServerNoticeList !in roomLists then None else CollectNotices(roomLists[ServerNoticeList])
  }

  /** Once a prefix of the ids fails to fetch, the whole list fails. */
  lemma {:induction false} FetchFailureIsFinal(room: Room, ids: seq<string>, n: nat)
    requires n <= |ids| && FetchPinned(room, ids[..n]).None?
    ensures FetchPinned(room, ids).None?
    decreases |ids| - n
  {
    if n < |ids| {
      assert ids[..n + 1][..n] == ids[..n];
      FetchFailureIsFinal(room, ids, n + 1);
    } else {
      assert ids[..n] == ids;
    }
  }

  /** A fetch fails exactly when one of the ids has no timeline. */
  lemma {:induction false} FetchFailsIffMissing(room: Room, ids: seq<string>)
    ensures FetchPinned(room, ids).None? <==> MissingTimeline(room, ids)
    decreases |ids|
  {
    if ids != [] {
      var init, id := ids[..|ids| - 1], ids[|ids| - 1];
      assert ids == init + [id];
      FetchFailsIffMissing(room, init);
      FetchPinnedStep(room, init, id);
      MissingTimelineSnoc(room, init, id);
    }
  }

  /** Some id of `ids` has no timeline. */
  predicate MissingTimeline(room: Room, ids: seq<string>) {
    exists i :: 0 <= i < |ids| && ids[i] !in room.timelines
  }

  /** An id list with one more id lacks a timeline iff the shorter one does or the new id does. */
  lemma MissingTimelineSnoc(room: Room, ids: seq<string>, id: string)
    ensures MissingTimeline(room, ids + [id]) <==> MissingTimeline(room, ids) || id !in room.timelines
  {
    var all := ids + [id];
    if i :| 0 <= i < |ids| && ids[i] !in room.timelines {
      assert all[i] == ids[i];
    }
    if id !in room.timelines {
      assert all[|ids|] == id;
    }
    if i :| 0 <= i < |all| && all[i] !in room.timelines {
      if i < |ids| {
        assert ids[i] == all[i];
      }
    }
  }

  /** Once a prefix of the rooms fails, the whole collection fails. */
  lemma {:induction false} CollectFailureIsFinal(rooms: seq<Room>, n: nat)
    requires n <= |rooms| && CollectNotices(rooms[..n]).None?
    ensures CollectNotices(rooms).None?
    decreases |rooms| - n
  {
    if n < |rooms| {
      assert rooms[..n + 1][..n] == rooms[..n];
      CollectFailureIsFinal(rooms, n + 1);
    } else {
      assert rooms[..n] == rooms;
    }
  }

  /** A room whose fetch succeeds appends its events to those of the rooms before it. */
  lemma CollectExtends(rooms: seq<Room>, i: nat, acc: seq<MatrixEvent>, events: seq<MatrixEvent>)
    requires i < |rooms| && CollectNotices(rooms[..i]) == Some(acc) && RoomNotices(rooms[i]) == Some(events)
    ensures CollectNotices(rooms[..i + 1]) == Some(acc + events)
  {
    var prefix := rooms[..i + 1];
    assert prefix[..|prefix| - 1] == rooms[..i] && prefix[|prefix| - 1] == rooms[i];
  }

  /** A room whose fetch fails aborts the whole collection. */
  lemma CollectAborts(rooms: seq<Room>, i: nat)
    requires i < |rooms| && RoomNotices(rooms[i]).None?
    ensures CollectNotices(rooms).None?
  {
    var prefix := rooms[..i + 1];
    assert prefix[..|prefix| - 1] == rooms[..i] && prefix[|prefix| - 1] == rooms[i];
    CollectFailureIsFinal(rooms, i + 1);
  }

  /**
   * The inner loop of `_updateServerNoticeEvents`: the first pinned ids of one
   * room in order, pushing every event found; `None` when a fetch fails, which
   * ends the whole update.
   */
  method FetchRoomNotices(room: Room) returns (r: Option<seq<MatrixEvent>>)
    ensures r == RoomNotices(room)
  {
    var pinnedEvents: seq<MatrixEvent> := [];
    var pinnedEventIds := IdsToFetch(room);
    var j := 0;
    while j < |pinnedEventIds|
      invariant 0 <= j <= |pinnedEventIds|
      invariant FetchPinned(room, pinnedEventIds[..j]) == Some(pinnedEvents)
    {
      var eventId := pinnedEventIds[j];
      assert pinnedEventIds[..j + 1] == pinnedEventIds[..j] + [eventId];
      FetchPinnedStep(room, pinnedEventIds[..j], eventId);
      if eventId !in room.timelines {
        FetchFailureIsFinal(room, pinnedEventIds, j + 1);
        return None;
      }
      var event := FindById(room.timelines[eventId], eventId);
      if event.Some? {
        pinnedEvents := pinnedEvents + [event.value];
      }
      j := j + 1;
    }
    assert pinnedEventIds[..j] == pinnedEventIds;
    r := Some(pinnedEvents);
  }

  /**
   * The outer loop of `_updateServerNoticeEvents`: rooms in order, each room's
   * events appended; the result is the value written to state, `None` when no
   * write happens.
   */
  method UpdateServerNoticeEvents(roomLists: map<string, seq<Room>>) returns (r: Option<seq<MatrixEvent>>)
    ensures r == NoticeRefresh(roomLists)
  {
    if ServerNoticeList !in roomLists {
      return None;
    }
    var rooms := roomLists[ServerNoticeList];
    var pinnedEvents: seq<MatrixEvent> := [];
    var i := 0;
    while i < |rooms|
      invariant 0 <= i <= |rooms|
      invariant CollectNotices(rooms[..i]) == Some(pinnedEvents)
    {
      var events := FetchRoomNotices(rooms[i]);
      if events.None? {
        CollectAborts(rooms, i);
        return None;
      }
      CollectExtends(rooms, i, pinnedEvents, events.value);
      pinnedEvents := pinnedEvents + events.value;
      i := i + 1;
    }
    assert rooms[..i] == rooms;
    r := Some(pinnedEvents);
  }

  // ---- properties of the refresh ----

  /** A room contributes at most two events, taken from its first two pinned ids in pinned order. */
  lemma RoomContribution(room: Room)
    ensures RoomNotices(room).Some? ==>
      |RoomNotices(room).value| <= MaxPinnedNoticesPerRoom
      && IsSubsequence(IdsOf(RoomNotices(room).value), IdsToFetch(room))
    ensures room.pinned.None? ==> RoomNotices(room) == Some([])
  {
  }

  /** The timeline fetched for `id` exists and holds the event with that id. */
  predicate Fetchable(room: Room, id: string) {
    id in room.timelines && exists k :: 0 <= k < |room.timelines[id]| && room.timelines[id][k].eventId == id
  }

  /** Every fetched id whose timeline holds its event contributes that event: nothing is dropped. */
  lemma {:induction false} FoundEventsAllKept(room: Room, ids: seq<string>)
    requires forall i :: 0 <= i < |ids| ==> Fetchable(room, ids[i])
    ensures FetchPinned(room, ids).Some? && IdsOf(FetchPinned(room, ids).value) == ids
    decreases |ids|
  {
    if ids != [] {
      var init, id := ids[..|ids| - 1], ids[|ids| - 1];
      assert ids == init + [id];
      assert forall i :: 0 <= i < |init| ==> init[i] == ids[i];
      FoundEventsAllKept(room, init);
      FetchableIsFound(room, id);
      FetchPinnedStep(room, init, id);
      var prev := FetchPinned(room, init).value;
      var found := FindById(room.timelines[id], id);
      assert IdsOf(prev + [found.value]) == IdsOf(prev) + [id];
    }
  }

  /** The ids, in order, whose timeline holds their event. */
  function FoundIds(room: Room, ids: seq<string>): (found: seq<string>)
    ensures forall x :: x in found ==> x in ids && Fetchable(room, x)
    decreases |ids|
  {
    if ids == [] then []
    else
      var init := FoundIds(room, ids[..|ids| - 1]);
      if Fetchable(room, ids[|ids| - 1]) then init + [ids[|ids| - 1]] else init
  }

  /**
   * When every fetch succeeds, the kept events are exactly those of the ids whose
   * timeline holds their event, in id order, each taken from its own id's
   * timeline: an id whose event is missing contributes nothing, the others are kept.
   */
  lemma {:induction false} FetchPinnedKeepsExactlyFound(room: Room, ids: seq<string>)
    requires !MissingTimeline(room, ids)
    ensures FetchPinned(room, ids).Some?
    ensures IdsOf(FetchPinned(room, ids).value) == FoundIds(room, ids)
    ensures forall k :: 0 <= k < |FetchPinned(room, ids).value| ==>
      var e := FetchPinned(room, ids).value[k];
      e.eventId in room.timelines && e in room.timelines[e.eventId]
    decreases |ids|
  {
    if ids != [] {
      var init, id := ids[..|ids| - 1], ids[|ids| - 1];
      assert ids == init + [id];
      MissingTimelineSnoc(room, init, id);
      FetchPinnedKeepsExactlyFound(room, init);
      FetchPinnedStep(room, init, id);
      var prev := FetchPinned(room, init).value;
      var found := FindById(room.timelines[id], id);
      if found.Some? {
        assert Fetchable(room, id);
        assert IdsOf(prev + [found.value]) == IdsOf(prev) + [id];
      } else {
        assert !Fetchable(room, id);
      }
    }
  }

  /** Timelines {a: [], b: [eb]} and ids [a, b]: the missing event is skipped and the found one kept. */
  lemma MissingEventSkipped(eb: MatrixEvent)
    requires eb.eventId == "$b"
    ensures var room := Room("!notices", Some(["$a", "$b"]), map["$a" := [], "$b" := [eb]]);
      RoomNotices(room) == Some([eb])
  {
    var room := Room("!notices", Some(["$a", "$b"]), map["$a" := [], "$b" := [eb]]);
    assert "$a" != "$b" by { assert "$a"[1] != "$b"[1]; }
    var ids: seq<string> := ["$a", "$b"];
    assert IdsToFetch(room) == ids;
    assert FindById([], "$a") == None;
    assert FindById([eb], "$b") == Some(eb);
    var none: seq<string> := [];
    var first: seq<string> := ["$a"];
    FetchPinnedStep(room, none, "$a");
    assert none + ["$a"] == first;
    FetchPinnedStep(room, first, "$b");
    assert first + ["$b"] == ids;
    assert [] + [eb] == [eb];
  }

  /** A fetchable id's timeline yields its event. */
  lemma FetchableIsFound(room: Room, id: string)
    requires Fetchable(room, id)
    ensures id in room.timelines && FindById(room.timelines[id], id).Some?
  {
    var k :| 0 <= k < |room.timelines[id]| && room.timelines[id][k].eventId == id;
  }

  /** Without a server-notice room list the cache is left as it was. */
  lemma NoListNoWrite(roomLists: map<string, seq<Room>>)
    requires ServerNoticeList !in roomLists
    ensures NoticeRefresh(roomLists).None?
  {
  }

  /**
   * A room with five pinned ids yields exactly the events of the first two; the
   * other three are never fetched (fetching them would fail here).
   */
  lemma {:induction false} FiveIdsYieldTwo(e1: MatrixEvent, e2: MatrixEvent)
    requires e1.eventId == "$1" && e2.eventId == "$2"
    ensures var room := Room("!notices", Some(["$1", "$2", "$3", "$4", "$5"]), map["$1" := [e1], "$2" := [e2]]);
      RoomNotices(room) == Some([e1, e2])
  {
    var room := Room("!notices", Some(["$1", "$2", "$3", "$4", "$5"]), map["$1" := [e1], "$2" := [e2]]);
    assert "$1" != "$2" by { assert "$1"[1] != "$2"[1]; }
    var ids: seq<string> := ["$1", "$2"];
    assert IdsToFetch(room) == ids;
    assert room.timelines["$1"] == [e1] && room.timelines["$2"] == [e2];
    assert FindById([e1], "$1") == Some(e1);
    assert FindById([e2], "$2") == Some(e2);
    var none: seq<string> := [];
    var first: seq<string> := ["$1"];
    FetchPinnedStep(room, none, "$1");
    assert none + ["$1"] == first;
    assert [] + [e1] == [e1];
    FetchPinnedStep(room, first, "$2");
    assert first + ["$2"] == ids;
    assert [e1] + [e2] == [e1, e2];
  }
}

=== FILE: top_bar.dfy ===
/**
 * The banner shown above the shell (`render`): at most one, chosen by the
 * first matching condition, and the body classes derived from it.
 */
module TopBar {
  import opened Wrappers
  import opened Matrix

  const ResourceLimitExceeded := "M_RESOURCE_LIMIT_EXCEEDED"
  const UsageLimitReached := "m.server_notice.usage_limit_reached"

  /** The `piwik` entry of the configuration. */
  datatype PiwikConfig = PiwikConfig(policyUrl: Nullish<string>)

  /** Everything the banner choice reads from props, state and the browser. */
  datatype BannerInputs = BannerInputs(
    syncErrorData: Nullish<SyncData>,
    serverNoticeEvents: seq<MatrixEvent>,
    showCookieBar: bool,
    piwik: Option<PiwikConfig>,
    doNotTrack: Option<string>,
    hasNewVersion: bool,
    checkingForUpdate: bool,
    userHasGeneratedPassword: bool,
    showNotifierToolbar: bool)

  datatype TopBar =
    | HardServerLimit(adminContact: Nullish<string>, limitType: Nullish<string>)
    | SoftServerLimit(adminContact: Nullish<string>, limitType: Nullish<string>)
    | CookieBar(policyUrl: Option<string>)
    | NewVersionBar
    | UpdateCheckBar
    | PasswordNagBar
    | NotifierToolbar

  /** The result of rendering the banner area: the bar and body classes, or a `TypeError`. */
  datatype Chrome = Rendered(topBar: Option<TopBar>, bodyClasses: seq<string>) | RenderThrows

  /** The predicate given to `serverNoticeEvents.find`. */
  predicate IsUsageLimitNotice(e: MatrixEvent) {
    e.eventType == "m.room.message" && e.serverNoticeType == Value(UsageLimitReached)
  }

  /** `usageLimitEvent`: the first usage-limit notice among the cached server notices. */
  function UsageLimitEvent(events: seq<MatrixEvent>): (r: Option<MatrixEvent>)
    ensures r.None? <==> forall i :: 0 <= i < |events| ==> !IsUsageLimitNotice(events[i])
    ensures r.Some? ==>
      exists i :: (0 <= i < |events| && events[i] == r.value && IsUsageLimitNotice(events[i])
                   && forall j :: 0 <= j < i ==> !IsUsageLimitNotice(events[j]))
  {
    if events == [] then None
    else if IsUsageLimitNotice(events[0]) then Some(events[0])
    else
      var r := UsageLimitEvent(events[1..]);
      if r.Some? then
        var i :| 0 <= i < |events[1..]| && events[1..][i] == r.value
          && IsUsageLimitNotice(events[1..][i])
          && forall j :: 0 <= j < i ==> !IsUsageLimitNotice(events[1..][j]);
        assert events[i + 1] == r.value;
        r
      else r
  }

  /** The sync error payload is present but reading `.error.errcode` from it throws. */
  predicate ErrcodeReadThrows(b: BannerInputs) {
    b.syncErrorData.Value? && !b.syncErrorData.v.error.Value?
  }

  /** The hard resource-limit condition of the first branch. */
  predicate HardLimit(b: BannerInputs) {
    b.syncErrorData.Value? && b.syncErrorData.v.error.Value?
    && b.syncErrorData.v.error.v.errcode == Value(ResourceLimitExceeded)
  }

  predicate CookieBarWanted(b: BannerInputs) {
    b.showCookieBar && b.piwik.Some? && b.doNotTrack != Some("1")
  }

  /**
   * The seven banner conditions in the order they are tried: hard limit, usage-limit
   * notice, cookie bar, new version, update check, password nag, notifier toolbar.
   */
  function Conditions(b: BannerInputs): (cs: seq<bool>)
    ensures |cs| == 7
  {
    [HardLimit(b), UsageLimitEvent(b.serverNoticeEvents).Some?, CookieBarWanted(b),
     b.hasNewVersion, b.checkingForUpdate, b.userHasGeneratedPassword, b.showNotifierToolbar]
  }

  /** The position of a bar in the precedence order. */
  function Rank(t: TopBar): (k: nat)
    ensures k < 7
  {
    match t
    case HardServerLimit(_, _) => 0
    case SoftServerLimit(_, _) => 1
    case CookieBar(_) => 2
    case NewVersionBar => 3
    case UpdateCheckBar => 4
    case PasswordNagBar => 5
    case NotifierToolbar => 6
  }

  /** The index of the first true entry, if any. */
  function FirstTrue(cs: seq<bool>): (r: Option<nat>)
    ensures r.Some? ==> r.value < |cs| && cs[r.value] && forall j :: 0 <= j < r.value ==> !cs[j]
    ensures r.None? ==> forall j :: 0 <= j < |cs| ==> !cs[j]
  {
    if cs == [] then None
    else if cs[0] then Some(0)
    else
      var r := FirstTrue(cs[1..]);
      if r.Some? then Some(r.value + 1) else None
  }

  /** `config.piwik.policyUrl || null`. */
  function PolicyUrl(p: PiwikConfig): Option<string> {
    if p.policyUrl.Value? && p.policyUrl.v != "" then Some(p.policyUrl.v) else None
  }

  /** The if/else chain that picks the top bar; `None` inside `Some` means no bar. */
  function SelectTopBar(b: BannerInputs): (r: Option<Option<TopBar>>)
  {
    if ErrcodeReadThrows(b) then None
    else if HardLimit(b) then
      var err := b.syncErrorData.v.error.v;
      if err.data.Value? then Some(Some(HardServerLimit(err.data.v.adminContact, err.data.v.limitType)))
      else None
    else
      var notice := UsageLimitEvent(b.serverNoticeEvents);
      if notice.Some? then Some(Some(SoftServerLimit(notice.value.adminContact, notice.value.limitType)))
      else if CookieBarWanted(b) then Some(Some(CookieBar(PolicyUrl(b.piwik.value))))
      else if b.hasNewVersion then Some(Some(NewVersionBar))
      else if b.checkingForUpdate then Some(Some(UpdateCheckBar))
      else if b.userHasGeneratedPassword then Some(Some(PasswordNagBar))
      else if b.showNotifierToolbar then Some(Some(NotifierToolbar))
      else Some(None)
  }

  /** The class list of the shell's body element. */
  function BodyClasses(topBar: Option<TopBar>, compact: bool): (r: seq<string>)
    ensures |r| >= 1 && r[0] == "mx_MatrixChat"
    ensures "mx_MatrixChat_toolbarShowing" in r <==> topBar.Some?
    ensures "mx_MatrixChat_useCompactLayout" in r <==> compact
  {
    ["mx_MatrixChat"]
    + (if topBar.Some? then ["mx_MatrixChat_toolbarShowing"] else [])
    + (if compact then ["mx_MatrixChat_useCompactLayout"] else [])
  }

  /** The banner area of `render`. */
  function RenderChrome(b: BannerInputs, compact: bool): Chrome {
    var bar := SelectTopBar(b);
    if bar.None? then RenderThrows else Rendered(bar.value, BodyClasses(bar.value, compact))
  }

  // ---- properties of the banner choice ----

  /** Any index whose entry holds and is preceded only by false entries is the first true one. */
  lemma {:induction false} FirstTrueAt(cs: seq<bool>, k: nat)
    requires k < |cs| && cs[k] && forall j :: 0 <= j < k ==> !cs[j]
    ensures FirstTrue(cs) == Some(k)
  {
    if k > 0 {
      FirstTrueAt(cs[1..], k - 1);
    }
  }

  /** The rank of the chosen bar is a true condition preceded only by false ones. */
  lemma ChosenRankIsFirstTrue(b: BannerInputs)
    requires SelectTopBar(b).Some? && SelectTopBar(b).value.Some?
    ensures var cs, k := Conditions(b), Rank(SelectTopBar(b).value.value);
      cs[k] && forall j :: 0 <= j < k ==> !cs[j]
  {
  }

  /** No bar is chosen only when no condition holds. */
  lemma NoBarNoCondition(b: BannerInputs)
    requires SelectTopBar(b) == Some(None)
    ensures forall j :: 0 <= j < 7 ==> !Conditions(b)[j]
  {
  }

  /**
   * The chosen bar is the one whose condition is the first to hold in the
   * precedence order, and no bar is chosen when none holds.
   */
  lemma SelectionIsFirstMatch(b: BannerInputs)
    requires SelectTopBar(b).Some?
    ensures SelectTopBar(b).value.None? <==> FirstTrue(Conditions(b)).None?
    ensures SelectTopBar(b).value.Some? ==>
      FirstTrue(Conditions(b)) == Some(Rank(SelectTopBar(b).value.value))
  {
    var cs := Conditions(b);
    var bar := SelectTopBar(b).value;
    if bar.Some? {
      ChosenRankIsFirstTrue(b);
      FirstTrueAt(cs, Rank(bar.value));
    } else {
      NoBarNoCondition(b);
    }
  }

  /** The toolbar-showing body class is present exactly when a bar was chosen. */
  lemma ToolbarClassIffBar(b: BannerInputs, compact: bool)
    requires RenderChrome(b, compact).Rendered?
    ensures var c := RenderChrome(b, compact);
      ("mx_MatrixChat_toolbarShowing" in c.bodyClasses <==> c.topBar.Some?)
      && (c.topBar.Some? <==> exists j :: 0 <= j < 7 && Conditions(b)[j])
  {
    SelectionIsFirstMatch(b);
  }

  /** Rendering throws exactly when the error payload lacks the fields the first branch reads. */
  lemma RenderThrowsExactly(b: BannerInputs, compact: bool)
    ensures RenderChrome(b, compact).RenderThrows? <==>
      ErrcodeReadThrows(b) || (HardLimit(b) && !b.syncErrorData.v.error.v.data.Value?)
  {
  }

  /** A hard limit error outranks a pending cookie bar. */
  lemma HardLimitBeatsCookieBar(b: BannerInputs, compact: bool)
    requires HardLimit(b) && CookieBarWanted(b)
    requires b.syncErrorData.v.error.v.data.Value?
    ensures RenderChrome(b, compact).Rendered?
    ensures RenderChrome(b, compact).topBar.Some?
    ensures RenderChrome(b, compact).topBar.value.HardServerLimit?
  {
  }

  // ---- componentDidUpdate ----

  /**
   * `componentDidUpdate`'s guess that a banner opened or closed: one of the cookie-bar,
   * new-version, generated-password or notifier-toolbar inputs changed.
   */
  predicate BannersMayHaveChanged(prev: BannerInputs, cur: BannerInputs) {
    prev.showCookieBar != cur.showCookieBar
    || prev.hasNewVersion != cur.hasNewVersion
    || prev.userHasGeneratedPassword != cur.userHasGeneratedPassword
    || prev.showNotifierToolbar != cur.showNotifierToolbar
  }

  /**
   * When only the four watched inputs can differ, a change of banner is always
   * noticed: no notification means the same banner.
   */
  lemma WatchedInputsDecideTheRest(prev: BannerInputs, cur: BannerInputs)
    requires prev.syncErrorData == cur.syncErrorData
    requires prev.serverNoticeEvents == cur.serverNoticeEvents
    requires prev.piwik == cur.piwik && prev.doNotTrack == cur.doNotTrack
    requires prev.checkingForUpdate == cur.checkingForUpdate
    ensures SelectTopBar(prev) != SelectTopBar(cur) ==> BannersMayHaveChanged(prev, cur)
  {
  }

  /** The guess misses banners driven by other inputs, such as a new hard-limit sync error. */
  lemma HardLimitErrorGoesUnnoticed()
    ensures
      var before := BannerInputs(Null, [], false, None, None, false, false, false, false);
      var data := LimitData(Value("admin@example.org"), Value("monthly_active_user"));
      var after := before.(syncErrorData := Value(SyncData(Value(MatrixError(Value(ResourceLimitExceeded), Value(data))))));
      SelectTopBar(before) != SelectTopBar(after) && !BannersMayHaveChanged(before, after)
  {
  }
}

=== FILE: wrappers.dfy ===
/** Small value wrappers shared by the model. */
module Wrappers {

  /** A value that may be absent. */
  datatype Option<+T> = None | Some(value: T)

  /**
   * A JavaScript value that may be `undefined`, `null` or present. The two
   * empty forms are kept apart because the shell compares them with `===`,
   * under which `null !== undefined`.
   */
  datatype Nullish<+T> = Undefined | Null | Value(v: T)
}
